=== FILE: README.md ===
# Content-site widgets, modelled in Dafny

A Dafny model of three page blocks of a content-managed site, and proofs of what they do.

- **Weather chart** (`blocks/weather/weather.js`):
  - builds a forecast request and checks the reply;
  - turns the reply into Chart.js line datasets, one per plotted parameter;
  - gives each dataset a colour by its position;
  - groups the datasets onto y-axes by measurement unit;
  - redraws whenever the reader ticks or unticks one of three checkboxes.
- **Article list** (`blocks/list-with-filter/list-with-filter.js`):
  - reads a two-column configuration table;
  - filters the site's query index by tag and category;
  - draws cards in one of four views: hand-picked paths, related articles closed by a placeholder card, a paged list with a "Load More" button, or everything.
- **News feed** (`blocks/newsfeed/newsfeed.js`):
  - reads a feed address and a limit from its table;
  - fetches the feed;
  - draws one card per article, with a fallback for each missing field.

Everything is a pure function. The DOM, `fetch`, the clock and locale formatting are left out. A network reply is a value (`Json.Response`), and a parsed JSON document is `Json.Value`. Locale-dependent formatting, the `Date` constructor and the fetch itself are function parameters. A JavaScript exception is the `Err` case of a `Result`. For example, a property read from `null`, a `matchAll` on a non-string, or `toISOString` on an invalid date each end the rendering with `Err`.

Modules:

| file | module | what it holds |
|---|---|---|
| `wrappers.dfy` | `Wrappers` | `Option`, `Result`, `MapAll` (a loop that stops at the first exception), `FirstWhere` (`Array.prototype.find` with a test that may throw) |
| `seqs.dfy` | `Seqs` | `Filter`, `Distinct`, `IndexOf`, `SliceTo` (`slice(0, end)`) |
| `strings.dfy` | `Strings` | JavaScript whitespace, `trim`, `split`/`join` on one character, the comma-list idiom, key normalisation, `parseInt`, `includes`, number rendering |
| `json.dfy` | `Json` | JSON values, truthiness, optional member access, `Object.keys`, `\|\|`, `??`, `parseInt` numbers with NaN |
| `block_config.dfy` | `BlockConfig` | rows of a configuration table, and the last row naming a setting |
| `weather.dfy` | `Weather` | request, fetch checks, labels, datasets, axis grouping |
| `weather_panel.dfy` | `WeatherPanel` | data attributes, checkboxes, redraw |
| `pages.dfy` | `Pages` | `renderCards`, `showMore` paging, and the per-path search of the hand-picked view, generic in how a card is drawn |
| `list_with_filter.dfy` | `ListWithFilter` | configuration, filtering, cards, related list, hand-picked list, view choice |
| `newsfeed.dfy` | `Newsfeed` | configuration, limit, endpoint, article cards, feed outcome |

Behaviour of the code that the model keeps, and that a reader may not expect:

- Weather request:
  - the request always carries the fixed coordinates and ignores the page's (`Weather.CoordinatesIgnored`);
  - `models` is sent only when it is a non-empty string (`if (models)`).
- Weather payload check:
  - the reply is refused only when `hourly.time` is missing or falsy;
  - a truthy `time` that is not an array passes and yields no labels.
- Related-articles view: the placeholder card is appended when `count <= initialLoad`, and `count = Math.min(initialLoad, filtered.length)`. The condition therefore holds for every number, and fails only when `initialLoad` is NaN. The model follows the code (`ListWithFilter.RelatedView`).
- Paged list with page size 0 (a tag or category filter without an `initialload` row):
  - the paged list opens empty;
  - with `loadmore` set and some item passing the filters, it shows a "Load More" button that never adds anything (`ListWithFilter.FilterWithoutInitialLoadStalls`).
- Tags given as an array:
  - an item with array tags passes the tag filter;
  - `createCard` then throws on it, because only strings have `matchAll` (`ListWithFilter.ArrayTagsPassButBreakCard`).
- News feed limit: `Number(limit) || 8` keeps negative numbers, so a negative limit drops that many articles from the end (`Newsfeed.NegativeLimit`).
- News feed dates: a single article with an invalid `publishedAt` makes `toISOString` throw. The whole feed is then replaced by the error message (`Newsfeed.InvalidDateFailsFeed`).

## Model

| member | source | states |
|---|---|---|
| `Weather.BuildUrl` | blocks/weather/weather.js:15-25 | the request goes to the forecast endpoint with the fixed latitude, longitude and time zone; `hourly` is present exactly when the parameter list is non-empty, and then holds the list comma-joined; `models` is present exactly when a non-empty model is given, and then holds it; no query parameter is set twice, and no parameter other than these five is sent |
| `Weather.CoordinatesIgnored` | blocks/weather/weather.js:15-19 | option sets with the same parameter list and model give the same request, whatever their coordinates or title |
| `Weather.HourlyRoundTrip` | blocks/weather/weather.js:20 | splitting the `hourly` value on commas gives back the requested list when no name holds a comma |
| `Weather.Color` | blocks/weather/weather.js:35-38 | every series colour is one of the eight palette entries |
| `Weather.ColorByPosition` | blocks/weather/weather.js:35-38 | two positions get the same colour exactly when they are equal modulo 8 |
| `Weather.Labels` | blocks/weather/weather.js:27-33 | an array of timestamps gives one label per timestamp in order; anything else gives no labels |
| `Weather.FetchWeather` | blocks/weather/weather.js:40-49 | a rejected fetch and a non-`ok` reply (with its status and body) are failures; the payload is returned exactly when the reply is `ok` and parses as JSON |
| `Weather.PlotParams` | blocks/weather/weather.js:151 | a non-empty requested list is plotted as given; otherwise the plotted parameters are exactly the keys of `hourly` other than `time`, each once, in `Object.keys` order (a subsequence of `Json.Keys`) |
| `Weather.PlotsPayloadKeys` | blocks/weather/weather.js:151-167 | without a requested list, some dataset plots `k` exactly when `k` is a key of `hourly` other than `time` |
| `Weather.StepSeen` | blocks/weather/weather.js:179-195 | a loop step for a unit already met takes the grouping of the units so far to the grouping of those units followed by this one |
| `Weather.StepNew` | blocks/weather/weather.js:179-193 | a loop step for a new unit takes the grouping of the units so far to the grouping of those units followed by this one |
| `Weather.GroupFromClosed` | blocks/weather/weather.js:173-200 | from the state after any prefix of units, the rest of the loop ends in the state of the whole sequence: one axis per distinct unit in order of first appearance, each unit mapped to its axis's id |
| `Weather.Group` | blocks/weather/weather.js:173-200 | the axes are `NewAxis(k, u)` for the distinct units `u` in order of first appearance; dataset `i` gets the id of its unit's axis |
| `Weather.AxisIdInjective` | blocks/weather/weather.js:181 | axis ids `y${k}` of different numbers differ |
| `Weather.GroupLayout` | blocks/weather/weather.js:181-191 | axis `k` has id `y${k}`, is on the left and draws grid lines exactly when `k == 0`, and every dataset id names one of the axes |
| `Weather.BuildChart` | blocks/weather/weather.js:145-213 | a `null` payload or a missing or falsy `hourly.time` is an error; otherwise the labels are those of `time`, and there is one dataset per plotted parameter, carrying that parameter's series (an empty array when absent), the positional colour and that colour with `40` appended as background; the title is displayed exactly when a non-empty title is given; the axes are `NewAxis(k, u)` for the distinct units `u` in order of first appearance (so each axis's title is its unit), and each dataset points at the axis of its own unit |
| `Weather.RenderChart` | blocks/weather/weather.js:139-219 | a failed fetch is the chart's error; a fetched payload is charted as `BuildChart` says |
| `Weather.DatasetColours` | blocks/weather/weather.js:155-199 | two datasets share a colour exactly when their positions are equal modulo 8 |
| `Weather.AxisSharing` | blocks/weather/weather.js:176-200 | two datasets share an axis exactly when their units are equal |
| `Weather.AxisLayout` | blocks/weather/weather.js:173-211 | a chart has as many axes as distinct units, numbered `y0, y1, ...`; only `y0` sits on the left and draws grid lines; every dataset points at one of the axes |
| `Weather.AxisOrder` | blocks/weather/weather.js:176-193 | a unit met earlier gets a lower-numbered axis |
| `WeatherPanel.Selected` | blocks/weather/weather.js:118-124 | a parameter is selected exactly when some ticked box carries it, and the selection is no longer than the panel |
| `WeatherPanel.SelectedFilter` | blocks/weather/weather.js:118-124 | the selection is the panel's parameters, in panel order, filtered by the test that ticked them |
| `WeatherPanel.SelectedEmpty` | blocks/weather/weather.js:118-124 | nothing is selected exactly when no box is ticked |
| `WeatherPanel.CreateControls` | blocks/weather/weather.js:77-114 | one box per offered choice, in order, with that choice's key and parameter |
| `WeatherPanel.InitialSelection` | blocks/weather/weather.js:92-106 | with a requested list, the first selection is exactly the offered parameters the list names, in panel order |
| `WeatherPanel.DefaultSelection` | blocks/weather/weather.js:105-106 | with no list, the first selection is `temperature_2m` then `rain` |
| `WeatherPanel.Toggle` | blocks/weather/weather.js:289-290 | a click flips the box clicked and leaves every other box unchanged |
| `WeatherPanel.ToggleSelected` | blocks/weather/weather.js:289-290 | after a click, the clicked box's parameter is selected exactly when it was not before, and every other parameter's selection is unchanged |
| `WeatherPanel.ToggleTwice` | blocks/weather/weather.js:289-290 | clicking the same box twice restores the panel |
| `WeatherPanel.ReadOptions` | blocks/weather/weather.js:237-243 | `data-hourly` is read as a comma list with blanks dropped; `data-models` and `data-title` are kept exactly when non-empty |
| `WeatherPanel.UpdateChart` | blocks/weather/weather.js:268-283 | with no box ticked the prompt is shown and no request made; otherwise the request is the one built from the options with `hourly` replaced by the selection (its `hourly` is the selection comma-joined), the chart is the one rendered from those options and the reply, and a drawn chart has one dataset per selected parameter, in selection order |
| `WeatherPanel.FirstSelection` | blocks/weather/weather.js:92-106 | the first selection is the offered parameters the list names, in panel order, or `temperature_2m` then `rain` when there is no list |
| `WeatherPanel.Decorate` | blocks/weather/weather.js:234-286 | the first draw shows the prompt exactly when the first selection is empty; otherwise the request is `BuildUrl` of the read options with `hourly` replaced by the first selection, and the chart is `RenderChart` of those options and the reply |
| `WeatherPanel.FirstDrawDefault` | blocks/weather/weather.js:258-286 | a page without `data-hourly` first requests `temperature_2m,rain` |
| `WeatherPanel.UnofferedListPrompts` | blocks/weather/weather.js:260-277 | a list that names none of the offered parameters shows the prompt |
| `WeatherPanel.DrawnParamsOffered` | blocks/weather/weather.js:269-279 | a chart drawn from the panel plots only offered parameters |
| `Strings.Trim` | blocks/list-with-filter/list-with-filter.js:249 | the trim is a slice of the text with only whitespace before and after it, and neither starts nor ends with whitespace; it is empty exactly when the text is all whitespace |
| `Strings.TrimFixed` | blocks/list-with-filter/list-with-filter.js:249 | a text without surrounding whitespace is its own trim |
| `Strings.Split` | blocks/list-with-filter/list-with-filter.js:96 | splitting gives at least one piece, and no piece holds the separator |
| `Strings.JoinSplit` | blocks/list-with-filter/list-with-filter.js:96 | joining the pieces of a split with the separator restores the text |
| `Strings.SplitJoin` | blocks/weather/weather.js:20 | splitting a join of separator-free parts gives the parts back |
| `Strings.SplitListEntries` | blocks/list-with-filter/list-with-filter.js:225 | every entry of a comma list is non-empty, comma-free and has no surrounding whitespace |
| `Strings.SplitListMembers` | blocks/weather/weather.js:241 | the entries of a comma list are exactly the non-empty trims of its comma-separated pieces |
| `Strings.NormalizeKey` | blocks/list-with-filter/list-with-filter.js:218 | the key keeps its length, has no whitespace and no upper-case ASCII letter; a position is a dash exactly when it was a dash or whitespace, and is otherwise the lower-cased character |
| `Strings.NormalizeKeyIdempotent` | blocks/newsfeed/newsfeed.js:8 | normalising a normalised key changes nothing |
| `Strings.NatToString` | blocks/weather/weather.js:181 | the rendering is a non-empty digit string that denotes the number, with no leading zero unless the number is 0 |
| `Strings.NatToStringInjective` | blocks/weather/weather.js:181 | different numbers are rendered differently |
| `Strings.ParseIntNatToString` | blocks/list-with-filter/list-with-filter.js:228 | `parseInt` reads back a rendered number behind leading whitespace and before a non-digit tail |
| `Strings.ParseIntNegative` | blocks/newsfeed/newsfeed.js:15 | the same with a minus sign reads back the negated number |
| `Strings.ContainsAt` | blocks/list-with-filter/list-with-filter.js:142 | `includes` holds exactly when the needle occurs at some position |
| `Json.Keys` | blocks/weather/weather.js:151 | `Object.keys` lists each member name once, and exactly the names the object has; array-index names (`"0"` to `"4294967294"` in canonical form) come first in ascending numeric order, and the other names follow in order of first appearance |
| `Json.IndexKeysFirst` | blocks/weather/weather.js:151 | for `{"b": …, "1": …}` the keys are `["1", "b"]`: an index name goes first even when it appears later |
| `Seqs.SliceTo` | blocks/newsfeed/newsfeed.js:48 | `slice(0, end)` is a prefix, of length `min(end, n)` for `end >= 0` and `max(n + end, 0)` for negative `end` |
| `Wrappers.MapAll` | blocks/list-with-filter/list-with-filter.js:199 | drawing every item succeeds exactly when each item can be drawn, and then gives one card per item in order |
| `Wrappers.FirstWhere` | blocks/list-with-filter/list-with-filter.js:142 | `find` returns the first item whose test is true after only false tests; it returns nothing exactly when every test is false; it throws exactly when the first test that is not false throws |
| `BlockConfig.ReadTable` | blocks/list-with-filter/list-with-filter.js:217-219 | reading the table throws exactly when some row has fewer than two cells; otherwise there is one row per table row, holding its first and second cell |
| `BlockConfig.ReadTableRoundTrip` | blocks/newsfeed/newsfeed.js:7-9 | rows laid out as two-cell table rows are read back unchanged |
| `BlockConfig.Last` | blocks/list-with-filter/list-with-filter.js:217-254 | a setting has a value exactly when some row names it, and the value is that of the last such row |
| `BlockConfig.LastSnoc` | blocks/newsfeed/newsfeed.js:7-20 | a new last row decides the setting it names and leaves every other as it was |
| `ListWithFilter.SettingNamed` | blocks/list-with-filter/list-with-filter.js:220-253 | a row name selects a `case` exactly when it is one of the ten setting names |
| `ListWithFilter.KeyNamed` | blocks/list-with-filter/list-with-filter.js:220-253 | each setting is selected by its own name and no other |
| `ListWithFilter.ReadAfterSet` | blocks/list-with-filter/list-with-filter.js:220-253 | recording a row's text for its setting and then reading the configuration is applying the row's `case` |
| `ListWithFilter.LastTextsSnoc` | blocks/list-with-filter/list-with-filter.js:217-254 | a new last row changes the deciding text of exactly the setting it names |
| `ListWithFilter.ParseConfigByLastRow` | blocks/list-with-filter/list-with-filter.js:204-256 | the configuration has each setting read from the last row that names it, or its default when none does |
| `ListWithFilter.UnknownRowIgnored` | blocks/list-with-filter/list-with-filter.js:251-252 | a row whose name is no setting leaves the configuration unchanged |
| `ListWithFilter.Sift` | blocks/list-with-filter/list-with-filter.js:89-99 | one non-empty filter throws exactly when an item is `null`, and otherwise keeps the items that pass, in order |
| `ListWithFilter.FilterData` | blocks/list-with-filter/list-with-filter.js:86-115 | filtering throws exactly when a filter is in use and some item is `null`; otherwise it keeps exactly the items each non-empty filter passes, in order |
| `ListWithFilter.FilterDataOrder` | blocks/list-with-filter/list-with-filter.js:86-115 | the survivors are a subsequence of the data |
| `ListWithFilter.FilterDataNoFilters` | blocks/list-with-filter/list-with-filter.js:86-115 | with both filters empty every item survives, `null` ones included |
| `ListWithFilter.FilterDataIdempotent` | blocks/list-with-filter/list-with-filter.js:86-115 | filtering the survivors again with the same filters changes nothing |
| `ListWithFilter.FilterDataMembership` | blocks/list-with-filter/list-with-filter.js:86-115 | an item survives exactly when it is in the data and each filter is empty or names one of its tags or categories |
| `ListWithFilter.Truncate` | blocks/list-with-filter/list-with-filter.js:63 | a description of up to 50 characters is kept; a longer one becomes its first 50 characters followed by `...` |
| `ListWithFilter.TruncateIdempotent` | blocks/list-with-filter/list-with-filter.js:63 | shortening a shortened description changes nothing |
| `ListWithFilter.CreateCard` | blocks/list-with-filter/list-with-filter.js:5-70 | a card is drawn exactly when the item is not `null`, its tags and category are falsy or strings, and its description is a string; the card carries the item's image and title and the shortened description, and shows the meta line exactly when the reading time, date or author is truthy |
| `ListWithFilter.ArrayTagsPassButBreakCard` | blocks/list-with-filter/list-with-filter.js:93-98 | an item whose tags array names a filtered tag passes the tag filter, yet drawing its card throws |
| `ListWithFilter.CardsOf` | blocks/list-with-filter/list-with-filter.js:196-201 | the cards of a list are drawn exactly when every item can be drawn, one per item in order |
| `ListWithFilter.ListProgress` | blocks/list-with-filter/list-with-filter.js:176-193 | with page size `n`, after the first page and `k` clicks, the list shows the cards of the first `min((k + 1) * n, filtered)` filtered items in order, and has the button exactly when loading more is enabled and items remain |
| `ListWithFilter.RelatedView` | blocks/list-with-filter/list-with-filter.js:149-174 | the related list filters by the configured tags or, when none are configured, by the page's tags, and draws the first `min(initialLoad, filtered)` cards; the placeholder with the configured texts is appended exactly when `initialLoad` is a number; the view fails exactly when filtering fails or one of the first `RelatedCount` filtered items cannot be drawn |
| `ListWithFilter.RelatedCards` | blocks/list-with-filter/list-with-filter.js:167-169 | drawing from 0 with `count = min(initialLoad, filtered)` gives the cards of the first `RelatedCount` items |
| `ListWithFilter.RelatedDrawn` | blocks/list-with-filter/list-with-filter.js:167-169 | drawing from 0 with `count = min(initialLoad, filtered)` succeeds exactly when each of the first `RelatedCount` items can be drawn as a card |
| `ListWithFilter.PathMatches` | blocks/list-with-filter/list-with-filter.js:142 | the test throws exactly for a `null` item or a path that is neither a string nor an array; it holds exactly when a string path contains the selected path or an array path has it as an element |
| `ListWithFilter.PickedCards` | blocks/list-with-filter/list-with-filter.js:138-146 | the hand-picked list succeeds exactly when every search succeeds and everything found can be drawn, and is then the cards of the found items in path order |
| `ListWithFilter.QueryItems` | blocks/list-with-filter/list-with-filter.js:263 | a `null` index throws; otherwise the items are `data` when it is an array, and none otherwise |
| `ListWithFilter.Init` | blocks/list-with-filter/list-with-filter.js:259-294 | a `null` index throws. Otherwise the view is chosen as follows. When paths are selected, it is the hand-picked list: it fails exactly when a search fails or something found cannot be drawn, and is otherwise the cards of what was found. Else, when related articles are asked for, it is the related list, failing exactly when that does. Else, when a filter is set, or the initial load is a non-zero number and loading more is on, it is the paged list after its first page. Else it is every item's card |
| `ListWithFilter.Block` | blocks/list-with-filter/list-with-filter.js:204-260 | a table row with fewer than two cells makes the block throw; a well-formed table gives `Init` of its rows |
| `ListWithFilter.EmptyTableShowsAll` | blocks/list-with-filter/list-with-filter.js:291-293 | a block without a table draws a card for every item of the index |
| `ListWithFilter.FilterWithoutInitialLoadStalls` | blocks/list-with-filter/list-with-filter.js:278-290 | a filtered list without an initial load opens empty, shows the button when items pass and loading more is set, and a click changes nothing |
| `Pages.RenderRange` | blocks/list-with-filter/list-with-filter.js:118-124 | `end` is `min(start + count, length)`, NaN when either is; the cards are those of `data[start..end)`, none when the range is empty or NaN; it succeeds exactly when the range is empty or NaN, or starts at 0 or later and every item of `data[start..end)` can be drawn, so an item outside the range never makes it fail |
| `Pages.RenderRangeAll` | blocks/list-with-filter/list-with-filter.js:118-124 | when every item can be drawn, rendering from `i` with count `n` gives the cards of `data[i..min(i + n, length))` and returns that end |
| `Pages.ShowMore` | blocks/list-with-filter/list-with-filter.js:182-190 | a page advances the index to `min(index + size, length)`, keeps the cards already shown as a prefix, and leaves the button exactly when loading more is enabled and items remain; a click fails exactly when the page is non-empty and either starts before the data or holds an item that cannot be drawn |
| `Pages.ShowMoreProgress` | blocks/list-with-filter/list-with-filter.js:181-191 | from a state whose cards are those of the items before the index, `k` pages of size `n` advance the index to `min(index + k * n, length)` and keep that correspondence |
| `Pages.OpenProgress` | blocks/list-with-filter/list-with-filter.js:181-191 | `m >= 1` pages from the start show the cards of the first `min(m * n, length)` items, with the button exactly when loading more is enabled and items remain |
| `Pages.ZeroPageSizeStalls` | blocks/list-with-filter/list-with-filter.js:183-185 | with page size 0 the first page is empty, the button appears whenever loading more is enabled and items exist, and a click changes nothing |
| `Pages.NaNPageSize` | blocks/list-with-filter/list-with-filter.js:119-120 | a page size that is not a number shows nothing and no button |
| `Pages.DrawFound` | blocks/list-with-filter/list-with-filter.js:141-144 | the hand-picked list has at most one card per path, and a successful list means every search succeeded |
| `Pages.DrawFoundByParts` | blocks/list-with-filter/list-with-filter.js:141-144 | searching and drawing path by path succeeds exactly when searching every path and then drawing what was found does, and gives the same cards |
| `Pages.AllFound` | blocks/list-with-filter/list-with-filter.js:141-144 | when every path finds a drawable item there is one card per path, in path order |
| `Pages.NoneFound` | blocks/list-with-filter/list-with-filter.js:141-144 | when no path finds anything the list is empty |
| `Newsfeed.ParseConfigByLastRow` | blocks/newsfeed/newsfeed.js:2-22 | the feed address is the last `feedapi` row's text, the limit the `parseInt` of the last `limit` row's text; each takes its default when no row names it |
| `Newsfeed.Limit` | blocks/newsfeed/newsfeed.js:28-29 | the limit is the parsed number when that is neither NaN nor 0, and 8 otherwise |
| `Newsfeed.LimitFromTable` | blocks/newsfeed/newsfeed.js:14-29 | the limit is 8 unless the last `limit` row parses to a non-zero integer, which is then the limit |
| `Newsfeed.EndpointFromTable` | blocks/newsfeed/newsfeed.js:35 | the feed fetched is the last `feedapi` row's text unless that is missing or empty, and then the built-in feed |
| `Newsfeed.ItemOf` | blocks/newsfeed/newsfeed.js:58-107 | a card fails exactly for a `null` article or a truthy `publishedAt` that is no valid date; a card's link, image, image text and title are always truthy; the description is shown exactly when truthy, and a date exactly when `publishedAt` is truthy |
| `Newsfeed.ItemKeepsFields` | blocks/newsfeed/newsfeed.js:63-105 | every truthy field of the article is shown as it is; the image text is the title when there is one |
| `Newsfeed.ItemFallbacks` | blocks/newsfeed/newsfeed.js:63-107 | each falsy field has its own fallback, whatever the others hold: link `#`, the placeholder image, title `Untitled` with image text `Article image`, an empty source, and no description or date |
| `Newsfeed.BareArticle` | blocks/newsfeed/newsfeed.js:63-100 | an article without any of the fields gets `#`, the placeholder image, `Article image`, `Untitled`, no description, an empty source and no date |
| `Newsfeed.Init` | blocks/newsfeed/newsfeed.js:24-35 | the feed shown is the one fetched from the last `feedapi` row's text (the built-in feed when that is missing or empty), limited by the last `limit` row (8 when there is none) |
| `Newsfeed.Block` | blocks/newsfeed/newsfeed.js:2-30 | a table row with fewer than two cells makes `init` throw before anything is fetched; a well-formed table gives `Init` of its rows |
| `Newsfeed.Selected` | blocks/newsfeed/newsfeed.js:48 | the articles walked through are a prefix of the feed's `articles` array |
| `Newsfeed.ShowArticles` | blocks/newsfeed/newsfeed.js:44-124 | the empty-feed message appears exactly when the reply was delivered and no article is selected; cards appear exactly when some are and all can be built, one per selected article in order; every other case is the error message |
| `Newsfeed.PositiveLimit` | blocks/newsfeed/newsfeed.js:48 | with a positive limit the cards are those of the first `min(limit, n)` articles |
| `Newsfeed.NegativeLimit` | blocks/newsfeed/newsfeed.js:48 | a negative limit drops that many articles from the end |
| `Newsfeed.AtMostEightByDefault` | blocks/newsfeed/newsfeed.js:26-30 | a table without a `limit` row shows at most eight cards |
| `Newsfeed.NoArrayNoArticles` | blocks/newsfeed/newsfeed.js:48-56 | a reply without an `articles` array shows the empty-feed message |
| `Newsfeed.InvalidDateFailsFeed` | blocks/newsfeed/newsfeed.js:100-123 | one selected article with an invalid date replaces the whole list with the error message |

## Left out

- Chart.js loading, canvases, the destruction of a previous chart and the chart options that only style it (`tension`, `pointRadius`, legend position) are not modelled; the chart is the configuration handed to Chart.js.
- The 300 ms debounce of `updateChart` and the race between overlapping fetches are not modelled: `UpdateChart` is the redraw once the timer fires, with one reply.
- The `JSON.parse` fallback of `decorate` (weather.js:246-256), which merges a JSON object from the block's text into the options, is not modelled: it only changes options the request ignores unless the JSON sets `hourly`, `models` or `title`, and its outcome depends on `Object.assign` over arbitrary JSON.
- `data-latitude` and `data-longitude` are kept as text: `Number(...)` is never used by the request.
- `Weather.AxisSharing`: units are compared as JSON values, whereas the code uses them as object keys, which coerces them to strings (so `1` and `"1"` would share an axis in the code).
- `Weather.Group`: `unitToAxisId` is a plain object, so a unit spelled like an inherited `Object.prototype` member (`constructor`, `toString`, `__proto__`) finds a truthy inherited value, which the code then uses as the axis id; the model's unit map starts empty. In the same way `data.hourly?.[param]` (weather.js:157) and `data.hourly_units?.[ds.label]` (weather.js:178) return inherited properties for such names, while `Json.Get`, and so `Weather.UnitOf`, reads own members only.
- `Weather.Labels`: the locale rendering of a timestamp is the parameter `format`; the `Date` parsing and `toLocaleString` are not modelled.
- `Newsfeed.ItemOf`: `new Date(...)`, `toISOString` and `toLocaleString` are the parameter `toDate`, whose None is an invalid date.
- The built-in news feed address of newsfeed.js:35 carries an access key; it is the parameter `builtIn` rather than a constant.
- Lower-casing (`toLowerCase` in the key normalisation and the yes/true test) covers only A-Z; other letters are not modelled.
- Strings are sequences of characters, not UTF-16 code units; lengths of text outside the Basic Multilingual Plane differ.
- `parseInt` returns unbounded integers; the loss of precision of large numbers in a double is not modelled.
- JSON numbers are exact decimals: only their truthiness is used.
- `createCard`'s tag and category badges (`processTagDisplay`, `processCategoryDisplay`, the token regular expression) come from another module and are not modelled; a card records whether its meta line is shown but not the meta texts and their fallbacks.
- `createPlaceholderCard` interpolates its texts into HTML; the placeholder keeps the three texts.
- A card list that throws half-way has already appended the cards before the failing item; the model returns only the exception.
- `fetchQueryData` (scripts/apiCache.js) is not part of this model: its result `queryData` is an input of `ListWithFilter.Init`.
- The page's `article:tag` meta value is an input (`pageTags`) rather than read from the document.
- The `block instanceof HTMLElement` checks and the clearing of the block's markup are DOM-only and not modelled.
- Error messages (`Open-Meteo fetch failed: ...`, `console.error` output) are not modelled beyond the kind of failure.
- `loadWeatherData` and the global `renderWeatherChart` export are not modelled: they expose the same functions.
- Series lengths are not compared with the number of `time` entries, as in the code: each dataset carries its series as the reply gives it.

=== FILE: block_config.dfy ===
/** The configuration table that authors put in a block: one row per setting, the
    setting's name in the first cell and its value in the second. Both blocks with a
    `parseBlockConfig` read it the same way: names are compared after lower-casing
    and turning whitespace into dashes, and rows are applied top to bottom, so a
    later row for the same setting wins. */
module BlockConfig {
  import opened Wrappers
  import opened Strings

  /** The text of a row's first and second cell. */
  datatype Row = Row(key: string, value: string)

  /** The block's table given as each row's cell texts. Reading
      `child.children[1].textContent` on a row with fewer than two cells reads a
      property of `undefined` and throws, which is None here; cells after the second
      are ignored. */
  function ReadTable(cells: seq<seq<string>>): (r: Option<seq<Row>>)
    ensures r.Some? <==> forall i :: 0 <= i < |cells| ==> |cells[i]| >= 2
    ensures r.Some? ==> |r.value| == |cells|
    ensures r.Some? ==> forall i :: 0 <= i < |cells| ==> r.value[i] == Row(cells[i][0], cells[i][1])
  {
    if cells == [] then Some([])
    else if |cells[0]| < 2 then None
    else match ReadTable(cells[1..])
      case None => None
      case Some(rest) => Some([Row(cells[0][0], cells[0][1])] + rest)
  }

  /** Laying rows out as two-cell table rows and reading the table gives the rows back. */
  lemma ReadTableRoundTrip(rows: seq<Row>)
    ensures ReadTable(seq(|rows|, i requires 0 <= i < |rows| => [rows[i].key, rows[i].value])) == Some(rows)
  {
    var cells := seq(|rows|, i requires 0 <= i < |rows| => [rows[i].key, rows[i].value]);
    assert forall i :: 0 <= i < |cells| ==> |cells[i]| >= 2;
    assert ReadTable(cells).value == rows;
  }

  /** The name a row sets, as the `switch` compares it. */
  function Name(row: Row): string {
    NormalizeKey(row.key)
  }

  /** The value of the last row that sets `name`, if any row does. */
  function Last(rows: seq<Row>, name: string): (r: Option<string>)
    ensures r.Some? <==> exists i :: 0 <= i < |rows| && Name(rows[i]) == name
    ensures r.Some? ==> exists i :: 0 <= i < |rows| && Name(rows[i]) == name && rows[i].value == r.value
                          && forall j :: i < j < |rows| ==> Name(rows[j]) != name
  {
    if rows == [] then None
    else if Name(rows[|rows| - 1]) == name then Some(rows[|rows| - 1].value)
    else
      var init := rows[..|rows| - 1];
      assert forall i :: 0 <= i < |init| ==> init[i] == rows[i];
      Last(init, name)
  }

  /** `['true', 'yes'].includes(value.toLowerCase())`. */
  predicate IsYes(value: string) {
    Lower(value) == "true" || Lower(value) == "yes"
  }

  /** A new last row decides the setting it names and leaves every other as it was. */
  lemma LastSnoc(rows: seq<Row>, row: Row, name: string)
    ensures Last(rows + [row], name) == if Name(row) == name then Some(row.value) else Last(rows, name)
  {
    assert (rows + [row])[..|rows|] == rows;
  }
}

=== FILE: json.dfy ===
/** Parsed JSON values, the JavaScript operations the widgets apply to them
    (truthiness, optional member access, `Object.keys`, `||` and `??`), the
    numbers that come out of `parseInt`, and what a `fetch` call delivers. */
module Json {
  import opened Wrappers
  import opened Seqs
  import opened Strings

  /** A value produced by `JSON.parse`. Numbers are kept as exact decimals, since the
      widgets only test them for zero; an object keeps its members in source order,
      duplicates included. */
  datatype Value =
    | Null
    | Bool(b: bool)
    | Num(n: real)
    | Str(s: string)
    | Arr(items: seq<Value>)
    | Obj(members: seq<(string, Value)>)

  /** JavaScript truthiness: `null`, `false`, `0` and `""` are falsy; arrays and
      objects, even empty ones, are truthy. */
  predicate Truthy(v: Value) {
    match v
    case Null => false
    case Bool(b) => b
    case Num(n) => n != 0.0
    case Str(s) => s != []
    case Arr(_) => true
    case Obj(_) => true
  }

  /** Truthiness of a value that may be `undefined`, which is falsy. */
  predicate TruthyOpt(x: Option<Value>) {
    x.Some? && Truthy(x.value)
  }

  /** The value bound to `key` by the last member that names it, as `JSON.parse`
      keeps the last of duplicated keys. */
  function Lookup(members: seq<(string, Value)>, key: string): (r: Option<Value>)
    ensures r.Some? <==> exists i :: 0 <= i < |members| && members[i].0 == key
    ensures r.Some? ==> exists i :: 0 <= i < |members| && members[i] == (key, r.value)
                                    && forall j :: i < j < |members| ==> members[j].0 != key
  {
    if members == [] then None
    else if members[|members| - 1].0 == key then Some(members[|members| - 1].1)
    else Lookup(members[..|members| - 1], key)
  }

  /** `v?.[key]`: None stands for `undefined`. Only objects have the members the
      widgets ask for; `null` gives `undefined` because the access is optional. */
  function Get(v: Value, key: string): Option<Value>
  {
    if v.Obj? then Lookup(v.members, key) else None
  }

  function Names(members: seq<(string, Value)>): (r: seq<string>)
    ensures |r| == |members|
    ensures forall i :: 0 <= i < |members| ==> r[i] == members[i].0
  {
    seq(|members|, i requires 0 <= i < |members| => members[i].0)
  }

  /** A property name that is an array index: the canonical decimal form of an integer
      from 0 to 2^32 - 2 (`"0"` and `"42"`, but not `"07"`, `"-1"` or `"4294967295"`). */
  predicate IsIndexKey(k: string) {
    && k != []
    && (forall i | 0 <= i < |k| :: IsDigit(k[i]))
    && (k[0] != '0' || |k| == 1)
    && DigitsValue(k) < 0xFFFF_FFFF
  }

  predicate NotIndexKey(k: string) {
    !IsIndexKey(k)
  }

  /** The number an array-index name stands for; 0 for any other name. */
  function IndexValue(k: string): nat {
    if IsIndexKey(k) then DigitsValue(k) else 0
  }

  /** Names in ascending order of the numbers they stand for. */
  ghost predicate Ascending(s: seq<string>) {
    forall i, j :: 0 <= i < j < |s| ==> IndexValue(s[i]) <= IndexValue(s[j])
  }

  /** `x` placed into the ascending names `s` after every smaller one. */
  function InsertIndex(x: string, s: seq<string>): (r: seq<string>)
    ensures |r| == |s| + 1
    ensures forall k :: k in r <==> k == x || k in s
    ensures Ascending(s) ==> Ascending(r)
    ensures NoDup(s) && x !in s ==> NoDup(r)
  {
    if s == [] || IndexValue(x) <= IndexValue(s[0]) then [x] + s
    else
      var r := [s[0]] + InsertIndex(x, s[1..]);
      assert NoDup(s) && x !in s ==> NoDup(r) by {
        if NoDup(s) && x !in s {
          assert s[0] !in s[1..];
          assert NoDup(s[1..]);
        }
      }
      assert Ascending(s) ==> Ascending(r) by {
        if Ascending(s) {
          assert forall k :: k in s[1..] ==> IndexValue(s[0]) <= IndexValue(k);
        }
      }
      r
  }

  /** The names of `s` in ascending order of the numbers they stand for. */
  function SortIndex(s: seq<string>): (r: seq<string>)
    ensures |r| == |s|
    ensures forall k :: k in r <==> k in s
    ensures Ascending(r)
    ensures NoDup(s) ==> NoDup(r)
    decreases |s|
  {
    if s == [] then []
    else
      assert NoDup(s) ==> s[0] !in s[1..] && NoDup(s[1..]);
      InsertIndex(s[0], SortIndex(s[1..]))
  }

  /** `Object.keys(v)`: each member name once; the array-index names come first, in
      ascending numeric order, and the other names follow in order of first
      appearance. */
  function Keys(v: Value): (ks: seq<string>)
    ensures NoDup(ks)
    ensures forall k :: k in ks <==> Get(v, k).Some?
    ensures v.Obj? ==>
      var rest := Filter(Distinct(Names(v.members)), NotIndexKey);
      && |rest| <= |ks|
      && ks[|ks| - |rest|..] == rest
      && forall i :: 0 <= i < |ks| - |rest| ==> IsIndexKey(ks[i])
    ensures forall i, j :: 0 <= i < j < |ks| && IsIndexKey(ks[i]) && IsIndexKey(ks[j]) ==>
      IndexValue(ks[i]) <= IndexValue(ks[j])
  {
    if v.Obj? then
      var names := Names(v.members);
      assert forall k :: k in names <==> exists i :: 0 <= i < |v.members| && v.members[i].0 == k;
      var d := Distinct(names);
      var indices := SortIndex(Filter(d, IsIndexKey));
      var rest := Filter(d, NotIndexKey);
      FilterNoDup(d, IsIndexKey);
      FilterNoDup(d, NotIndexKey);
      IndexKeysSplit(indices, rest);
      indices + rest
    else []
  }

  /** Ascending array-index names followed by other names: no name twice when neither
      part has one twice, and the index names, all before the others, stay ascending. */
  lemma IndexKeysSplit(indices: seq<string>, rest: seq<string>)
    requires NoDup(indices) && NoDup(rest) && Ascending(indices)
    requires forall i :: 0 <= i < |indices| ==> IsIndexKey(indices[i])
    requires forall i :: 0 <= i < |rest| ==> NotIndexKey(rest[i])
    ensures NoDup(indices + rest)
    ensures forall i, j :: 0 <= i < j < |indices + rest| && IsIndexKey((indices + rest)[i]) && IsIndexKey((indices + rest)[j]) ==>
      IndexValue((indices + rest)[i]) <= IndexValue((indices + rest)[j])
  {
    var ks := indices + rest;
    forall i, j | 0 <= i < j < |ks|
      ensures ks[i] != ks[j]
    {
      if j >= |indices| && i < |indices| {
        assert ks[j] == rest[j - |indices|] && ks[i] == indices[i];
      }
    }
    forall i, j | 0 <= i < j < |ks| && IsIndexKey(ks[i]) && IsIndexKey(ks[j])
      ensures IndexValue(ks[i]) <= IndexValue(ks[j])
    {
    }
  }

  /** Array-index names are listed before the others, whatever the member order:
      `Object.keys({"b": null, "1": null})` is `["1", "b"]`. */
  lemma IndexKeysFirst()
    ensures Keys(Obj([("b", Null), ("1", Null)])) == ["1", "b"]
  {
    var v := Obj([("b", Null), ("1", Null)]);
    assert IsIndexKey("1") && !IsIndexKey("b");
    var ks := Keys(v);
    assert "1" in ks && "b" in ks;
    assert |Distinct(Names(v.members))| <= 2;
  }

  /** `x || d` where `x` may be `undefined`. */
  function Or(x: Option<Value>, d: Value): (r: Value)
    ensures x.Some? && Truthy(x.value) ==> r == x.value
    ensures !(x.Some? && Truthy(x.value)) ==> r == d
  {
    if x.Some? && Truthy(x.value) then x.value else d
  }

  /** `x ?? d` where `x` may be `undefined`: only `undefined` and `null` give way. */
  function Coalesce(x: Option<Value>, d: Value): (r: Value)
    ensures x.Some? && !x.value.Null? ==> r == x.value
    ensures x.None? || x.value.Null? ==> r == d
  {
    if x.Some? && !x.value.Null? then x.value else d
  }

  /** A number produced by `parseInt`: NaN or an integer. */
  datatype Numeric = NaN | Int(value: int)

  function FromParse(o: Option<int>): Numeric {
    match o
    case Some(n) => Int(n)
    case None => NaN
  }

  /** `Math.min`, which is NaN as soon as either argument is. */
  function Min(a: Numeric, b: Numeric): Numeric {
    if a.NaN? || b.NaN? then NaN
    else Int(if a.value <= b.value then a.value else b.value)
  }

  /** `a + b`. */
  function Plus(a: Numeric, b: Numeric): Numeric {
    if a.NaN? || b.NaN? then NaN else Int(a.value + b.value)
  }

  /** `a < b`, which is false when either side is NaN. */
  predicate Less(a: Numeric, b: Numeric) {
    a.Int? && b.Int? && a.value < b.value
  }

  /** `a <= b`, which is false when either side is NaN. */
  predicate AtMost(a: Numeric, b: Numeric) {
    a.Int? && b.Int? && a.value <= b.value
  }

  /** Truthiness of a number: NaN and 0 are falsy. */
  predicate NumTruthy(a: Numeric) {
    a.Int? && a.value != 0
  }

  /** What `fetch` delivers: a rejected promise, or a response with its `ok` flag,
      status, body text and the outcome of `res.json()` (None when the body is not JSON). */
  datatype Response =
    | NetworkFailure
    | Response(ok: bool, status: nat, body: string, json: Option<Value>)
}

=== FILE: list_with_filter.dfy ===
/** The article list block (blocks/list-with-filter/list-with-filter.js) without the
    page: the configuration table, the tag and category filter, the cards, the
    paged "Load More" list, the related-articles list with its closing placeholder,
    the hand-picked list, and the choice between these views. The query index and
    the page's `article:tag` meta value are inputs. */
module ListWithFilter {
  import opened Wrappers
  import opened Seqs
  import opened Strings
  import opened Json
  import opened BlockConfig
  import Pages

  // ---------------------------------------------------------------------------
  // Configuration

  datatype Config = Config(
    queryPath: string,
    selectedPaths: seq<string>,
    initialLoad: Numeric,
    loadMore: bool,
    tagFilter: seq<string>,
    categoryFilter: seq<string>,
    relatedArticle: bool,
    headerText: string,
    linkText: string,
    link: string)

  const Defaults: Config := Config("", [], Int(0), false, [], [], false, "", "", "")

  /** The setting names the block understands. */
  const Settings: set<string> :=
    {"querypath", "selectedpaths", "initialload", "loadmore", "tag-filter",
     "category-filter", "related-article", "header-text", "link-text", "link"}

  /** The settings, one per `case` of the `switch`. */
  datatype Setting =
    | QueryPath | SelectedPaths | InitialLoad | LoadMore | TagFilter
    | CategoryFilter | RelatedArticle | HeaderText | LinkText | Link

  /** The `case` label a row's name selects, if any. */
  function SettingNamed(name: string): (s: Option<Setting>)
    ensures s.Some? <==> name in Settings
  {
    if name == "querypath" then Some(QueryPath)
    else if name == "selectedpaths" then Some(SelectedPaths)
    else if name == "initialload" then Some(InitialLoad)
    else if name == "loadmore" then Some(LoadMore)
    else if name == "tag-filter" then Some(TagFilter)
    else if name == "category-filter" then Some(CategoryFilter)
    else if name == "related-article" then Some(RelatedArticle)
    else if name == "header-text" then Some(HeaderText)
    else if name == "link-text" then Some(LinkText)
    else if name == "link" then Some(Link)
    else None
  }

  /** The name that selects a setting. */
  function Key(s: Setting): string {
    match s
    case QueryPath => "querypath"
    case SelectedPaths => "selectedpaths"
    case InitialLoad => "initialload"
    case LoadMore => "loadmore"
    case TagFilter => "tag-filter"
    case CategoryFilter => "category-filter"
    case RelatedArticle => "related-article"
    case HeaderText => "header-text"
    case LinkText => "link-text"
    case Link => "link"
  }

  /** A setting's name selects that setting and no other: the `switch` has no
      duplicate labels. */
  lemma KeyNamed(s: Setting, name: string)
    ensures SettingNamed(name) == Some(s) <==> name == Key(s)
  {
  }

  /** One `case` of the `switch`: the setting read from the row's text. */
  function Read(c: Config, s: Setting, v: string): Config {
    match s
    case QueryPath => c.(queryPath := v)
    case SelectedPaths => c.(selectedPaths := SplitList(v))
    case InitialLoad => c.(initialLoad := FromParse(ParseInt(v)))
    case LoadMore => c.(loadMore := IsYes(v))
    case TagFilter => c.(tagFilter := SplitList(v))
    case CategoryFilter => c.(categoryFilter := SplitList(v))
    case RelatedArticle => c.(relatedArticle := IsYes(v))
    case HeaderText => c.(headerText := v)
    case LinkText => c.(linkText := v)
    case Link => c.(link := Trim(v))
  }

  /** The `switch` on a row's name: the one setting it names, read as that setting is read. */
  function ApplySetting(c: Config, name: string, v: string): Config {
    match SettingNamed(name)
    case Some(s) => Read(c, s, v)
    case None => c
  }

  /** One pass of the `forEach` over the table. */
  function ApplyRow(c: Config, row: Row): Config {
    ApplySetting(c, Name(row), row.value)
  }

  /** `parseBlockConfig(block)`: the defaults, updated by each row from top to bottom. */
  function ParseConfig(rows: seq<Row>): Config {
    if rows == [] then Defaults
    else ApplyRow(ParseConfig(rows[..|rows| - 1]), rows[|rows| - 1])
  }

  /** For each setting, the text that decides it, if some row names it. */
  datatype Texts = Texts(
    queryPath: Option<string>,
    selectedPaths: Option<string>,
    initialLoad: Option<string>,
    loadMore: Option<string>,
    tagFilter: Option<string>,
    categoryFilter: Option<string>,
    relatedArticle: Option<string>,
    headerText: Option<string>,
    linkText: Option<string>,
    link: Option<string>)

  /** Each setting's text taken from the last row that names it. */
  function LastTexts(rows: seq<Row>): Texts {
    Texts(
      Last(rows, Key(QueryPath)),
      Last(rows, Key(SelectedPaths)),
      Last(rows, Key(InitialLoad)),
      Last(rows, Key(LoadMore)),
      Last(rows, Key(TagFilter)),
      Last(rows, Key(CategoryFilter)),
      Last(rows, Key(RelatedArticle)),
      Last(rows, Key(HeaderText)),
      Last(rows, Key(LinkText)),
      Last(rows, Key(Link)))
  }

  /** The text recorded for one setting. */
  function TextOf(t: Texts, s: Setting): Option<string> {
    match s
    case QueryPath => t.queryPath
    case SelectedPaths => t.selectedPaths
    case InitialLoad => t.initialLoad
    case LoadMore => t.loadMore
    case TagFilter => t.tagFilter
    case CategoryFilter => t.categoryFilter
    case RelatedArticle => t.relatedArticle
    case HeaderText => t.headerText
    case LinkText => t.linkText
    case Link => t.link
  }

  /** Texts are equal when they agree setting by setting. */
  lemma TextsEqual(a: Texts, b: Texts)
    requires forall s :: TextOf(a, s) == TextOf(b, s)
    ensures a == b
  {
    assert TextOf(a, QueryPath) == TextOf(b, QueryPath);
    assert TextOf(a, SelectedPaths) == TextOf(b, SelectedPaths);
    assert TextOf(a, InitialLoad) == TextOf(b, InitialLoad);
    assert TextOf(a, LoadMore) == TextOf(b, LoadMore);
    assert TextOf(a, TagFilter) == TextOf(b, TagFilter);
    assert TextOf(a, CategoryFilter) == TextOf(b, CategoryFilter);
    assert TextOf(a, RelatedArticle) == TextOf(b, RelatedArticle);
    assert TextOf(a, HeaderText) == TextOf(b, HeaderText);
    assert TextOf(a, LinkText) == TextOf(b, LinkText);
    assert TextOf(a, Link) == TextOf(b, Link);
  }

  /** A row's text recorded for the setting it names. */
  function SetText(t: Texts, name: string, v: string): Texts {
    match SettingNamed(name)
    case Some(s) => Record(t, s, v)
    case None => t
  }

  function Record(t: Texts, s: Setting, v: string): Texts {
    match s
    case QueryPath => t.(queryPath := Some(v))
    case SelectedPaths => t.(selectedPaths := Some(v))
    case InitialLoad => t.(initialLoad := Some(v))
    case LoadMore => t.(loadMore := Some(v))
    case TagFilter => t.(tagFilter := Some(v))
    case CategoryFilter => t.(categoryFilter := Some(v))
    case RelatedArticle => t.(relatedArticle := Some(v))
    case HeaderText => t.(headerText := Some(v))
    case LinkText => t.(linkText := Some(v))
    case Link => t.(link := Some(v))
  }

  /** The configuration described setting by setting: each setting read from its text
      as that setting is read, or its default when no text decides it. */
  function FromTexts(t: Texts): Config {
    Config(
      t.queryPath.GetOr(""),
      match t.selectedPaths case Some(v) => SplitList(v) case None => [],
      match t.initialLoad case Some(v) => FromParse(ParseInt(v)) case None => Int(0),
      t.loadMore.Some? && IsYes(t.loadMore.value),
      match t.tagFilter case Some(v) => SplitList(v) case None => [],
      match t.categoryFilter case Some(v) => SplitList(v) case None => [],
      t.relatedArticle.Some? && IsYes(t.relatedArticle.value),
      t.headerText.GetOr(""),
      t.linkText.GetOr(""),
      Trim(t.link.GetOr("")))
  }

  /** Later rows override earlier ones, setting by setting: the configuration read from
      a table is the one whose every setting comes from the last row that names it, or
      is the default. */
  lemma {:induction false} ParseConfigByLastRow(rows: seq<Row>)
    ensures ParseConfig(rows) == FromTexts(LastTexts(rows))
  {
    if rows == [] {
      assert Trim("") == "";
    } else {
      var init, row := rows[..|rows| - 1], rows[|rows| - 1];
      assert rows == init + [row];
      ParseConfigByLastRow(init);
      LastTextsSnoc(init, row);
      ReadAfterSet(LastTexts(init), Name(row), row.value);
    }
  }

  /** A new last row changes the text of exactly the setting it names. */
  lemma LastTextsSnoc(init: seq<Row>, row: Row)
    ensures LastTexts(init + [row]) == SetText(LastTexts(init), Name(row), row.value)
  {
    var t, t' := LastTexts(init), LastTexts(init + [row]);
    var u := SetText(t, Name(row), row.value);
    forall s ensures TextOf(t', s) == TextOf(u, s) {
      LastSnoc(init, row, Key(s));
      TextOfLast(init + [row], s);
      TextOfLast(init, s);
      TextOfSet(t, Name(row), row.value, s);
    }
    TextsEqual(t', u);
  }

  lemma TextOfLast(rows: seq<Row>, s: Setting)
    ensures TextOf(LastTexts(rows), s) == Last(rows, Key(s))
  {
  }

  /** Recording a row's text changes the text of the setting it names, and only that. */
  lemma TextOfSet(t: Texts, name: string, v: string, s': Setting)
    ensures TextOf(SetText(t, name, v), s') == if name == Key(s') then Some(v) else TextOf(t, s')
  {
    KeyNamed(s', name);
    match SettingNamed(name)
    case Some(s) =>
      KeyNamed(s, name);
      TextOfRecord(t, s, v, s');
    case None =>
  }

  lemma TextOfRecord(t: Texts, s: Setting, v: string, s': Setting)
    ensures TextOf(Record(t, s, v), s') == if s == s' then Some(v) else TextOf(t, s')
  {
  }

  /** Reading a setting from a new text is what the `switch` does with that row. */
  lemma ReadAfterSet(t: Texts, name: string, v: string)
    ensures FromTexts(SetText(t, name, v)) == ApplySetting(FromTexts(t), name, v)
  {
    match SettingNamed(name)
    case Some(s) => ReadAfterRecord(t, s, v);
    case None =>
  }

  lemma ReadAfterRecord(t: Texts, s: Setting, v: string)
    ensures FromTexts(Record(t, s, v)) == Read(FromTexts(t), s, v)
  {
  }

  /** A row whose name is not a setting leaves the configuration as it was. */
  lemma UnknownRowIgnored(rows: seq<Row>, row: Row)
    requires Name(row) !in Settings
    ensures ParseConfig(rows + [row]) == ParseConfig(rows)
  {
    assert (rows + [row])[..|rows|] == rows;
  }

  // ---------------------------------------------------------------------------
  // Filtering

  /** A JavaScript exception, which ends the rendering of the block. */
  datatype Failure = TypeError

  /** Does a tag or category field name something in `filter`? A falsy or missing field
      does not; an array is searched for the filter's strings as it is; a string is
      split on commas, trimmed, and its non-empty pieces searched; any other value has
      nothing to offer. */
  predicate Mentions(field: Option<Value>, filter: seq<string>) {
    TruthyOpt(field) &&
    match field.value
    case Arr(xs) => exists i :: 0 <= i < |xs| && xs[i].Str? && xs[i].s in filter
    case Str(s) => exists t :: t in SplitList(s) && t in filter
    case _ => false
  }

  /** The test a non-empty filter puts an item to. */
  predicate Passes(item: Value, field: string, filter: seq<string>) {
    Mentions(Get(item, field), filter)
  }

  /** The test one non-empty filter puts an item to, as a function value. */
  function ByField(field: string, filter: seq<string>): Value -> bool {
    (x: Value) => Passes(x, field, filter)
  }

  /** The condition for an item to survive both filters: each filter is empty or passed. */
  predicate Keeps(item: Value, tagFilter: seq<string>, categoryFilter: seq<string>) {
    (tagFilter == [] || Passes(item, "tags", tagFilter)) &&
    (categoryFilter == [] || Passes(item, "category", categoryFilter))
  }

  /** `Keeps` as a function value. */
  function Keeping(tagFilter: seq<string>, categoryFilter: seq<string>): Value -> bool {
    (x: Value) => Keeps(x, tagFilter, categoryFilter)
  }

  /** `items.filter(...)` with one non-empty filter: reading the field of a `null` item throws. */
  function Sift(items: seq<Value>, field: string, filter: seq<string>): (r: Result<seq<Value>, Failure>)
    ensures r.Err? <==> Null in items
    ensures r.Ok? ==> r.value == Filter(items, ByField(field, filter))
  {
    if items == [] then Ok([])
    else if items[0].Null? then Err(TypeError)
    else
      var rest :- Sift(items[1..], field, filter);
      Ok(if Passes(items[0], field, filter) then [items[0]] + rest else rest)
  }

  /** One of the two passes of `filterData`, which is skipped for an empty filter. */
  function Pass(items: seq<Value>, field: string, filter: seq<string>): Result<seq<Value>, Failure> {
    if filter == [] then Ok(items) else Sift(items, field, filter)
  }

  /** `filterData(data, tagFilter, categoryFilter)`: the items that pass both filters, in
      their order. It throws when some filter is in use and the data holds a `null`. */
  function FilterData(data: seq<Value>, tagFilter: seq<string>, categoryFilter: seq<string>): (r: Result<seq<Value>, Failure>)
    ensures r.Err? <==> (tagFilter != [] || categoryFilter != []) && Null in data
    ensures r.Ok? ==> r.value == Filter(data, Keeping(tagFilter, categoryFilter))
  {
    FilterDataFacts(data, tagFilter, categoryFilter);
    var tagged :- Pass(data, "tags", tagFilter);
    Pass(tagged, "category", categoryFilter)
  }

  /** How the two passes combine into the single test `Keeps`. */
  lemma FilterDataFacts(data: seq<Value>, tagFilter: seq<string>, categoryFilter: seq<string>)
    ensures tagFilter == [] && categoryFilter == [] ==> Filter(data, Keeping(tagFilter, categoryFilter)) == data
    ensures tagFilter == [] && categoryFilter != [] ==> Filter(data, ByField("category", categoryFilter)) == Filter(data, Keeping(tagFilter, categoryFilter))
    ensures tagFilter != [] && categoryFilter == [] ==> Filter(data, ByField("tags", tagFilter)) == Filter(data, Keeping(tagFilter, categoryFilter))
    ensures tagFilter != [] && categoryFilter != [] ==>
      Filter(Filter(data, ByField("tags", tagFilter)), ByField("category", categoryFilter)) == Filter(data, Keeping(tagFilter, categoryFilter))
  {
    var keeps := Keeping(tagFilter, categoryFilter);
    var byTag := ByField("tags", tagFilter);
    var byCategory := ByField("category", categoryFilter);
    if tagFilter == [] && categoryFilter == [] {
      FilterAll(data, keeps);
    }
    if tagFilter == [] && categoryFilter != [] {
      FilterSame(data, byCategory, keeps);
    }
    if tagFilter != [] && categoryFilter == [] {
      FilterSame(data, byTag, keeps);
    }
    if tagFilter != [] && categoryFilter != [] {
      FilterFilter(data, byTag, byCategory, keeps);
    }
  }

  /** Filtering keeps the survivors in their original order. */
  lemma FilterDataOrder(data: seq<Value>, tagFilter: seq<string>, categoryFilter: seq<string>)
    requires FilterData(data, tagFilter, categoryFilter).Ok?
    ensures IsSubseq(FilterData(data, tagFilter, categoryFilter).value, data)
  {
  }

  /** With both filters empty every item survives, `null` ones included. */
  lemma FilterDataNoFilters(data: seq<Value>)
    ensures FilterData(data, [], []) == Ok(data)
  {
  }

  /** Filtering what was filtered with the same filters changes nothing. */
  lemma FilterDataIdempotent(data: seq<Value>, tagFilter: seq<string>, categoryFilter: seq<string>)
    requires FilterData(data, tagFilter, categoryFilter).Ok?
    ensures var once := FilterData(data, tagFilter, categoryFilter).value;
            FilterData(once, tagFilter, categoryFilter) == Ok(once)
  {
    var keeps := Keeping(tagFilter, categoryFilter);
    var once := FilterData(data, tagFilter, categoryFilter).value;
    FilterIdempotent(data, keeps);
    assert Null !in once || (tagFilter == [] && categoryFilter == []);
  }

  /** An item survives exactly when each filter is empty or names one of the item's
      tags or categories. */
  lemma FilterDataMembership(data: seq<Value>, tagFilter: seq<string>, categoryFilter: seq<string>, x: Value)
    requires FilterData(data, tagFilter, categoryFilter).Ok?
    ensures x in FilterData(data, tagFilter, categoryFilter).value <==>
            x in data && (tagFilter == [] || Passes(x, "tags", tagFilter))
                      && (categoryFilter == [] || Passes(x, "category", categoryFilter))
  {
  }

  // ---------------------------------------------------------------------------
  // Cards

  /** The card description: the first 50 characters, and `...` when there were more. */
  function Truncate(s: string): (r: string)
    ensures |s| <= 50 ==> r == s
    ensures |s| > 50 ==> |r| == 53 && r[..50] == s[..50] && r[50..] == "..."
    ensures |r| <= 53
  {
    if |s| > 50 then s[..50] + "..." else s
  }

  /** A shortened description is not shortened again. */
  lemma TruncateIdempotent(s: string)
    ensures Truncate(Truncate(s)) == Truncate(s)
  {
  }

  /** What a card shows, short of the markup. */
  datatype Card = Card(image: Option<Value>, title: Option<Value>, description: string, metaShown: bool)

  /** A tag or category field can go through `(field || '').matchAll(...)`: it is falsy
      or a string. Any other value has no `matchAll` and throws. */
  predicate Matchable(field: Option<Value>) {
    !TruthyOpt(field) || field.value.Str?
  }

  /** `createCard(item)`. It throws for a `null` item, for tags or a category that are
      neither falsy nor a string, and for a description that is not a string. The meta
      line (reading time, date, author) appears when any of the three is truthy. */
  function CreateCard(item: Value): (r: Result<Card, Failure>)
    ensures r.Ok? <==> !item.Null? && Matchable(Get(item, "tags")) && Matchable(Get(item, "category"))
                       && Get(item, "description").Some? && Get(item, "description").value.Str?
    ensures r.Ok? ==> |r.value.description| <= 53
    ensures r.Ok? ==> r.value.description == Truncate(Get(item, "description").value.s)
    ensures r.Ok? ==> r.value.image == Get(item, "image") && r.value.title == Get(item, "title")
    ensures r.Ok? ==> (r.value.metaShown <==>
      TruthyOpt(Get(item, "timeToRead")) || TruthyOpt(Get(item, "date")) || TruthyOpt(Get(item, "author")))
  {
    if item.Null? then Err(TypeError)
    else if !Matchable(Get(item, "tags")) || !Matchable(Get(item, "category")) then Err(TypeError)
    else match Get(item, "description")
      case Some(Str(d)) =>
        var shown := TruthyOpt(Get(item, "timeToRead")) || TruthyOpt(Get(item, "date")) || TruthyOpt(Get(item, "author"));
        Ok(Card(Get(item, "image"), Get(item, "title"), Truncate(d), shown))
      case _ => Err(TypeError)
  }

  /** Tags given as an array pass the tag filter when they name a filtered tag, but
      such an item cannot be drawn: arrays have no `matchAll`. */
  lemma ArrayTagsPassButBreakCard(item: Value, xs: seq<Value>, filter: seq<string>, i: nat)
    requires !item.Null? && Get(item, "tags") == Some(Arr(xs))
    requires i < |xs| && xs[i].Str? && xs[i].s in filter
    ensures Passes(item, "tags", filter)
    ensures CreateCard(item).Err?
  {
  }

  /** Cards for `items` in order; the first item that cannot be drawn throws. */
  function CardsOf(items: seq<Value>): (r: Result<seq<Card>, Failure>)
    ensures r.Ok? <==> forall i :: 0 <= i < |items| ==> CreateCard(items[i]).Ok?
    ensures r.Ok? ==> |r.value| == |items| && forall i :: 0 <= i < |items| ==> r.value[i] == CreateCard(items[i]).value
  {
    MapAll(items, CreateCard)
  }

  // ---------------------------------------------------------------------------
  // The "Load More" list

  /** The state of `articleListCardView`'s list over the block's items and cards. */
  type List = Pages.Paging<Value, Card>

  /** `articleListCardView` up to its first page: filter, then `showMore()` once. */
  function OpenList(data: seq<Value>, pageSize: Numeric, loadMore: bool,
                    tagFilter: seq<string>, categoryFilter: seq<string>): Result<List, Failure>
  {
    var filtered :- FilterData(data, tagFilter, categoryFilter);
    Pages.ShowMore(CreateCard, TypeError, Pages.Unopened(filtered, pageSize, loadMore))
  }

  /** The "Load More" button clicked `k` times. */
  function Clicks(p: List, k: nat): Result<List, Failure> {
    Pages.ShowMoreTimes(CreateCard, TypeError, p, k)
  }

  /** The list with page size `n >= 0`, after the first page and `k` clicks, shows the
      cards of the first `(k + 1) * n` filtered items (all of them if there are fewer),
      in order, and has the button exactly when loading more is enabled and filtered
      items remain unshown. */
  lemma ListProgress(data: seq<Value>, n: nat, loadMore: bool, tagFilter: seq<string>, categoryFilter: seq<string>, k: nat)
    requires FilterData(data, tagFilter, categoryFilter).Ok?
    requires CardsOf(FilterData(data, tagFilter, categoryFilter).value).Ok?
    ensures OpenList(data, Int(n), loadMore, tagFilter, categoryFilter).Ok?
    ensures var filtered := FilterData(data, tagFilter, categoryFilter).value;
            var q := Clicks(OpenList(data, Int(n), loadMore, tagFilter, categoryFilter).value, k);
            var seen := Pages.Covered(k + 1, n, |filtered|);
            && q.Ok?
            && q.value.index == Int(seen)
            && Ok(q.value.shown) == CardsOf(filtered[..seen])
            && (q.value.button <==> loadMore && seen < |filtered|)
  {
    var filtered := FilterData(data, tagFilter, categoryFilter).value;
    Pages.OpenProgress(CreateCard, TypeError, filtered, n, loadMore, k + 1);
  }

  // ---------------------------------------------------------------------------
  // Related articles

  /** The card that closes the related list: a heading, a text and a link. */
  datatype Placeholder = Placeholder(headerText: string, linkText: string, link: string)

  /** The related list: its cards and, possibly, the placeholder after them. */
  datatype Related = Related(cards: seq<Card>, placeholder: Option<Placeholder>)

  /** The tags the related list filters by: the configured ones or, when none are
      configured and the page's `article:tag` value is non-empty, that value's
      comma-separated non-empty pieces. */
  function RelatedTags(tagFilter: seq<string>, pageTags: Option<string>): seq<string> {
    if tagFilter == [] && pageTags.Some? && pageTags.value != "" then SplitList(pageTags.value)
    else tagFilter
  }

  /** How many cards the related list draws for `initialLoad` and `available` filtered
      items: `min(initialLoad, available)` when that is positive, otherwise none. */
  function RelatedCount(initialLoad: Numeric, available: nat): nat {
    if initialLoad.NaN? || initialLoad.value <= 0 then 0
    else if initialLoad.value < available then initialLoad.value
    else available
  }

  /** `relatedArticleCardWithPlaceholderView`: filter (by the page's tags when no tag is
      configured), draw the first `min(initialLoad, filtered.length)` cards, then add
      the placeholder when `count <= initialLoad`, which holds for every number and
      fails only for NaN. */
  function RelatedView(data: seq<Value>, c: Config, pageTags: Option<string>): (r: Result<Related, Failure>)
    ensures r.Ok? ==> (r.value.placeholder.Some? <==> c.initialLoad.Int?)
    ensures r.Ok? && r.value.placeholder.Some? ==>
      r.value.placeholder.value == Placeholder(c.headerText, c.linkText, c.link)
    ensures r.Ok? ==> FilterData(data, RelatedTags(c.tagFilter, pageTags), c.categoryFilter).Ok?
    ensures r.Ok? ==>
      var filtered := FilterData(data, RelatedTags(c.tagFilter, pageTags), c.categoryFilter).value;
      Ok(r.value.cards) == CardsOf(filtered[..RelatedCount(c.initialLoad, |filtered|)])
    ensures r.Ok? <==>
      && FilterData(data, RelatedTags(c.tagFilter, pageTags), c.categoryFilter).Ok?
      && var filtered := FilterData(data, RelatedTags(c.tagFilter, pageTags), c.categoryFilter).value;
         CardsOf(filtered[..RelatedCount(c.initialLoad, |filtered|)]).Ok?
  {
    var filtered :- FilterData(data, RelatedTags(c.tagFilter, pageTags), c.categoryFilter);
    var count := Min(c.initialLoad, Int(|filtered|));
    RelatedDrawn(filtered, c.initialLoad);
    var rendered :- Pages.RenderRange(CreateCard, TypeError, filtered, Int(0), count);
    RelatedCards(filtered, count, rendered.cards);
    Ok(Related(rendered.cards,
               if AtMost(count, c.initialLoad) then Some(Placeholder(c.headerText, c.linkText, c.link)) else None))
  }

  /** The cards drawn from the start of the filtered items are those of its first
      `RelatedCount` items. */
  lemma RelatedCards(filtered: seq<Value>, count: Numeric, cards: seq<Card>)
    requires Pages.RenderRange(CreateCard, TypeError, filtered, Int(0), count).Ok?
    requires cards == Pages.RenderRange(CreateCard, TypeError, filtered, Int(0), count).value.cards
    ensures forall initialLoad :: count == Min(initialLoad, Int(|filtered|)) ==>
              Ok(cards) == CardsOf(filtered[..RelatedCount(initialLoad, |filtered|)])
  {
    var r := Pages.RenderRange(CreateCard, TypeError, filtered, Int(0), count).value;
    var prefix := filtered[..if Less(Int(0), r.end) then r.end.value else 0];
    if Less(Int(0), r.end) {
      forall k | 0 <= k < |prefix| ensures CreateCard(prefix[k]).Ok? && cards[k] == CreateCard(prefix[k]).value {
        assert prefix[k] == filtered[0 + k];
      }
    } else {
      assert prefix == [];
    }
    assert Ok(cards) == CardsOf(prefix);
  }

  /** Drawing the first `min(initialLoad, filtered.length)` cards fails exactly when
      one of the first `RelatedCount` filtered items cannot be drawn as a card. */
  lemma RelatedDrawn(filtered: seq<Value>, initialLoad: Numeric)
    ensures Pages.RenderRange(CreateCard, TypeError, filtered, Int(0), Min(initialLoad, Int(|filtered|))).Ok?
        <==> CardsOf(filtered[..RelatedCount(initialLoad, |filtered|)]).Ok?
  {
    var count := Min(initialLoad, Int(|filtered|));
    var end := Min(Plus(Int(0), count), Int(|filtered|));
    if Less(Int(0), end) {
      assert end.value == RelatedCount(initialLoad, |filtered|);
      assert filtered[0..end.value] == filtered[..end.value];
    } else {
      assert RelatedCount(initialLoad, |filtered|) == 0;
      assert filtered[..0] == [];
    }
  }

  // ---------------------------------------------------------------------------
  // Hand-picked articles

  /** `element.path.includes(path)`: a string path contains `path`, an array path has
      `path` as an element. Reading `path` of `null` throws, and so does calling
      `includes` on a path that is missing or neither a string nor an array. */
  function PathMatches(item: Value, path: string): (r: Result<bool, Failure>)
    ensures r.Err? <==> item.Null? || Get(item, "path").None? || !(Get(item, "path").value.Str? || Get(item, "path").value.Arr?)
    ensures r == Ok(true) <==>
      !item.Null? &&
      ((exists p :: Get(item, "path") == Some(Str(p)) && Contains(p, path)) ||
       (exists xs :: Get(item, "path") == Some(Arr(xs)) && Str(path) in xs))
  {
    if item.Null? then Err(TypeError)
    else match Get(item, "path")
      case Some(Str(p)) => Ok(Contains(p, path))
      case Some(Arr(xs)) => Ok(Str(path) in xs)
      case _ => Err(TypeError)
  }

  /** The test `find` applies for one selected path. */
  function MatchesPath(path: string): Value -> Result<bool, Failure> {
    (x: Value) => PathMatches(x, path)
  }

  /** `data.find(element => element.path.includes(path))`. */
  function Find(data: seq<Value>, path: string): Result<Option<Value>, Failure> {
    FirstWhere(data, MatchesPath(path))
  }

  /** `Find` in `data` as a function value. */
  function FindIn(data: seq<Value>): string -> Result<Option<Value>, Failure> {
    (path: string) => Find(data, path)
  }

  /** `selectedPathView`: for each selected path in order, the card of the first item
      whose path matches it; a path that nothing matches adds nothing. */
  function SelectedPathView(data: seq<Value>, paths: seq<string>): Result<seq<Card>, Failure> {
    Pages.DrawFound(paths, FindIn(data), CreateCard)
  }

  /** The hand-picked list is the cards of what the selected paths find, in the order
      of the paths, skipping paths that find nothing. */
  lemma PickedCards(data: seq<Value>, paths: seq<string>)
    ensures SelectedPathView(data, paths).Ok? <==>
      Pages.FoundAll(paths, FindIn(data)).Ok? && CardsOf(Pages.FoundAll(paths, FindIn(data)).value).Ok?
    ensures SelectedPathView(data, paths).Ok? ==>
      Ok(SelectedPathView(data, paths).value) == CardsOf(Pages.FoundAll(paths, FindIn(data)).value)
  {
    Pages.DrawFoundByParts(paths, FindIn(data), CreateCard);
  }

  // ---------------------------------------------------------------------------
  // The block

  /** The view `init` chooses, with what it shows. */
  datatype View =
    | Picked(cards: seq<Card>)
    | RelatedList(related: Related)
    | Paged(list: List)
    | Everything(cards: seq<Card>)

  /** `Array.isArray(queryData.data) ? queryData.data : []`; reading `data` of `null`
      throws. */
  function QueryItems(queryData: Value): (r: Result<seq<Value>, Failure>)
    ensures r.Err? <==> queryData.Null?
    ensures r.Ok? ==> (r.value != [] ==> Get(queryData, "data") == Some(Arr(r.value)))
    ensures r.Ok? ==> (forall xs :: Get(queryData, "data") == Some(Arr(xs)) ==> r.value == xs)
  {
    if queryData.Null? then Err(TypeError)
    else match Get(queryData, "data")
      case Some(Arr(xs)) => Ok(xs)
      case _ => Ok([])
  }

  /** `init(block)` once the query index has answered `queryData`: the hand-picked
      list when paths are selected, else the related list when asked for, else the
      paged list when a filter is set or both a non-zero initial load and loading more
      are, else every item's card. */
  function Init(rows: seq<Row>, queryData: Value, pageTags: Option<string>): (r: Result<View, Failure>)
    ensures r.Ok? ==> QueryItems(queryData).Ok?
    ensures r.Ok? ==> (r.value.Picked? <==> ParseConfig(rows).selectedPaths != [])
    ensures r.Ok? ==> (r.value.RelatedList? <==> ParseConfig(rows).selectedPaths == [] && ParseConfig(rows).relatedArticle)
    ensures r.Ok? && r.value.Paged? ==>
      var c := ParseConfig(rows);
      && r.value.list.pageSize == c.initialLoad && r.value.list.loadMore == c.loadMore
      && FilterData(QueryItems(queryData).value, c.tagFilter, c.categoryFilter).Ok?
      && r.value.list.filtered == FilterData(QueryItems(queryData).value, c.tagFilter, c.categoryFilter).value
    ensures r.Ok? && r.value.Everything? ==> Ok(r.value.cards) == CardsOf(QueryItems(queryData).value)
    ensures QueryItems(queryData).Err? ==> r.Err?
    ensures r.Ok? ==> (r.value.Paged? <==>
      var c := ParseConfig(rows);
      c.selectedPaths == [] && !c.relatedArticle
      && (c.tagFilter != [] || c.categoryFilter != [] || (NumTruthy(c.initialLoad) && c.loadMore)))
    ensures QueryItems(queryData).Ok? && ParseConfig(rows).selectedPaths != [] ==>
      var found := Pages.FoundAll(ParseConfig(rows).selectedPaths, FindIn(QueryItems(queryData).value));
      && (r.Ok? <==> found.Ok? && CardsOf(found.value).Ok?)
      && (r.Ok? ==> Ok(r.value.cards) == CardsOf(found.value))
    ensures QueryItems(queryData).Ok? && ParseConfig(rows).selectedPaths == [] && ParseConfig(rows).relatedArticle ==>
      var related := RelatedView(QueryItems(queryData).value, ParseConfig(rows), pageTags);
      && (r.Ok? <==> related.Ok?)
      && (r.Ok? ==> r.value.related == related.value)
    ensures QueryItems(queryData).Ok? && ParseConfig(rows).selectedPaths == [] && !ParseConfig(rows).relatedArticle ==>
      var c := ParseConfig(rows);
      var data := QueryItems(queryData).value;
      if c.tagFilter != [] || c.categoryFilter != [] || (NumTruthy(c.initialLoad) && c.loadMore) then
        && (r.Ok? <==> OpenList(data, c.initialLoad, c.loadMore, c.tagFilter, c.categoryFilter).Ok?)
        && (r.Ok? ==> r.value.list == OpenList(data, c.initialLoad, c.loadMore, c.tagFilter, c.categoryFilter).value)
      else
        && (r.Ok? <==> CardsOf(data).Ok?)
        && (r.Ok? ==> r.value.cards == CardsOf(data).value)
  {
    var c := ParseConfig(rows);
    var data :- QueryItems(queryData);
    if c.selectedPaths != [] then
      PickedCards(data, c.selectedPaths);
      var cards :- SelectedPathView(data, c.selectedPaths);
      Ok(Picked(cards))
    else if c.relatedArticle then
      var related :- RelatedView(data, c, pageTags);
      Ok(RelatedList(related))
    else if c.tagFilter != [] || c.categoryFilter != [] || (NumTruthy(c.initialLoad) && c.loadMore) then
      var list :- OpenList(data, c.initialLoad, c.loadMore, c.tagFilter, c.categoryFilter);
      Ok(Paged(list))
    else
      var cards :- CardsOf(data);
      Ok(Everything(cards))
  }

  /** `init(block)` from the block's table cells: a row with fewer than two cells
      throws while the configuration is read; otherwise the block shows what `Init`
      says for the rows' first two cells. */
  function Block(cells: seq<seq<string>>, queryData: Value, pageTags: Option<string>): (r: Result<View, Failure>)
    ensures (exists i :: 0 <= i < |cells| && |cells[i]| < 2) ==> r == Err(TypeError)
    ensures (forall i :: 0 <= i < |cells| ==> |cells[i]| >= 2) ==>
      && ReadTable(cells).Some?
      && r == Init(ReadTable(cells).value, queryData, pageTags)
  {
    match ReadTable(cells)
    case None => Err(TypeError)
    case Some(rows) => Init(rows, queryData, pageTags)
  }

  /** A block without a configuration table draws every item of the index. */
  lemma EmptyTableShowsAll(queryData: Value, pageTags: Option<string>)
    requires QueryItems(queryData).Ok? && CardsOf(QueryItems(queryData).value).Ok?
    ensures Init([], queryData, pageTags) == Ok(Everything(CardsOf(QueryItems(queryData).value).value))
  {
  }

  /** A filtered list whose table sets no initial load has a page size of 0: its first
      page is empty, yet, with loading more enabled and some item passing the filters,
      the "Load More" button is shown and clicking it changes nothing. */
  lemma FilterWithoutInitialLoadStalls(rows: seq<Row>, queryData: Value, pageTags: Option<string>)
    requires var c := ParseConfig(rows);
      c.selectedPaths == [] && !c.relatedArticle && c.tagFilter != [] && c.loadMore && c.initialLoad == Int(0)
    requires QueryItems(queryData).Ok?
    requires var c := ParseConfig(rows);
      FilterData(QueryItems(queryData).value, c.tagFilter, c.categoryFilter).Ok?
      && FilterData(QueryItems(queryData).value, c.tagFilter, c.categoryFilter).value != []
    ensures Init(rows, queryData, pageTags).Ok? && Init(rows, queryData, pageTags).value.Paged?
    ensures var list := Init(rows, queryData, pageTags).value.list;
            list.shown == [] && list.button && Pages.ShowMore(CreateCard, TypeError, list) == Ok(list)
  {
    var c := ParseConfig(rows);
    var filtered := FilterData(QueryItems(queryData).value, c.tagFilter, c.categoryFilter).value;
    Pages.ZeroPageSizeStalls<Value, Card, Failure>(CreateCard, TypeError, filtered);
  }
}

=== FILE: newsfeed.dfy ===
/** The news feed block (blocks/newsfeed/newsfeed.js) without the page: the
    configuration table, the number of articles to show, the feed address, and the
    list of article cards built from the feed's reply, with the fallbacks each card
    uses for missing fields. The fetch, the date parser and the built-in feed
    address are inputs. */
module Newsfeed {
  import opened Wrappers
  import opened Seqs
  import opened Json
  import opened Strings
  import opened BlockConfig

  // ---------------------------------------------------------------------------
  // Configuration

  /** The feed address (empty when none is given) and the `limit` as `parseInt` read it. */
  datatype Config = Config(feedUrl: string, initialLoad: Numeric)

  const Defaults: Config := Config("", Int(0))

  /** One pass of the `forEach` over the table: `feedapi` and `limit` are read, every
      other row is ignored. */
  function ApplyRow(c: Config, row: Row): Config {
    if Name(row) == "feedapi" then c.(feedUrl := row.value)
    else if Name(row) == "limit" then c.(initialLoad := FromParse(ParseInt(row.value)))
    else c
  }

  /** `parseBlockConfig(block)`: the defaults, updated by each row from top to bottom. */
  function ParseConfig(rows: seq<Row>): Config {
    if rows == [] then Defaults
    else ApplyRow(ParseConfig(rows[..|rows| - 1]), rows[|rows| - 1])
  }

  /** Later rows override earlier ones: the feed address is the text of the last
      `feedapi` row, the limit the `parseInt` of the last `limit` row's text, and each
      is its default when no row names it. */
  lemma {:induction false} ParseConfigByLastRow(rows: seq<Row>)
    ensures ParseConfig(rows).feedUrl == Last(rows, "feedapi").GetOr("")
    ensures ParseConfig(rows).initialLoad ==
      match Last(rows, "limit") case Some(v) => FromParse(ParseInt(v)) case None => Int(0)
  {
    if rows != [] {
      var init, row := rows[..|rows| - 1], rows[|rows| - 1];
      assert rows == init + [row];
      ParseConfigByLastRow(init);
      LastSnoc(init, row, "feedapi");
      LastSnoc(init, row, "limit");
    }
  }

  /** `Number(attrLimit) || 8`: the parsed limit unless it is NaN or zero. A negative
      limit is kept, and `slice` then counts it back from the end of the list. */
  function Limit(initialLoad: Numeric): (n: int)
    ensures n != 0
    ensures NumTruthy(initialLoad) ==> n == initialLoad.value
    ensures !NumTruthy(initialLoad) ==> n == 8
  {
    if NumTruthy(initialLoad) then initialLoad.value else 8
  }

  /** The limit a table asks for: eight unless its last `limit` row parses to a
      non-zero integer, which is then the limit. */
  lemma LimitFromTable(rows: seq<Row>)
    ensures Last(rows, "limit").None? ==> Limit(ParseConfig(rows).initialLoad) == 8
    ensures Last(rows, "limit").Some? ==>
      var p := ParseInt(Last(rows, "limit").value);
      Limit(ParseConfig(rows).initialLoad) == if p.Some? && p.value != 0 then p.value else 8
  {
    ParseConfigByLastRow(rows);
  }

  /** `config.feedUrl || <built-in feed>`. The built-in address carries an access key
      and is passed in as `builtIn`. */
  function Endpoint(c: Config, builtIn: string): string {
    if c.feedUrl != "" then c.feedUrl else builtIn
  }

  /** The feed asked for is the last `feedapi` row's text, unless that is empty or no
      row names it. */
  lemma EndpointFromTable(rows: seq<Row>, builtIn: string)
    ensures Last(rows, "feedapi").Some? && Last(rows, "feedapi").value != "" ==>
      Endpoint(ParseConfig(rows), builtIn) == Last(rows, "feedapi").value
    ensures Last(rows, "feedapi").None? || Last(rows, "feedapi").value == "" ==>
      Endpoint(ParseConfig(rows), builtIn) == builtIn
  {
    ParseConfigByLastRow(rows);
  }

  // ---------------------------------------------------------------------------
  // Articles

  /** The image shown when an article has none. */
  const PlaceholderImage: string := "https://aitkenspence.com/images/news/news_placeholder.jpg"

  /** What `new Date(publishedAt)` yields when it is a valid date: `toISOString()` and
      `toLocaleString()`. */
  datatype Stamp = Stamp(iso: string, local: string)

  datatype Image = Image(src: Value, alt: Value)

  /** One article card: the link target, the image, the title, the description
      paragraph when there is one, the source name and the publication time when
      there is one. */
  datatype Item = Item(
    href: Value,
    image: Image,
    title: Value,
    description: Option<Value>,
    source: Value,
    date: Option<Stamp>)

  /** Why building the cards stopped: a property read on `null`, or `toISOString()`
      on an invalid date. */
  datatype Failure = TypeError | RangeError

  /** `a.source?.name`. */
  function SourceName(a: Value): Option<Value> {
    match Get(a, "source")
    case Some(s) => Get(s, "name")
    case None => None
  }

  /** The body of the `for` loop for article `a`. `toDate` stands for the `Date`
      constructor: None is an invalid date. */
  function ItemOf(a: Value, toDate: Value -> Option<Stamp>): (r: Result<Item, Failure>)
    ensures r.Err? <==> a.Null? || (TruthyOpt(Get(a, "publishedAt")) && toDate(Get(a, "publishedAt").value).None?)
    ensures r.Ok? ==> Truthy(r.value.href) && Truthy(r.value.image.src) && Truthy(r.value.image.alt) && Truthy(r.value.title)
    ensures r.Ok? ==> (r.value.description.Some? <==> TruthyOpt(Get(a, "description")))
    ensures r.Ok? && r.value.description.Some? ==> r.value.description == Get(a, "description")
    ensures r.Ok? ==> (r.value.date.Some? <==> TruthyOpt(Get(a, "publishedAt")))
  {
    if a.Null? then Err(TypeError)
    else
      var published := Get(a, "publishedAt");
      var date := if TruthyOpt(published) then toDate(published.value) else None;
      if TruthyOpt(published) && date.None? then Err(RangeError)
      else
        var image := Image(Or(Get(a, "urlToImage"), Str(PlaceholderImage)), Or(Get(a, "title"), Str("Article image")));
        var description := if TruthyOpt(Get(a, "description")) then Get(a, "description") else None;
        Ok(Item(Or(Get(a, "url"), Str("#")), image, Or(Get(a, "title"), Str("Untitled")), description,
                Or(SourceName(a), Str("")), date))
  }

  /** An article's own fields are shown as they are whenever they are truthy. */
  lemma ItemKeepsFields(a: Value, toDate: Value -> Option<Stamp>)
    requires ItemOf(a, toDate).Ok?
    ensures var it := ItemOf(a, toDate).value;
            && (TruthyOpt(Get(a, "url")) ==> it.href == Get(a, "url").value)
            && (TruthyOpt(Get(a, "urlToImage")) ==> it.image.src == Get(a, "urlToImage").value)
            && (TruthyOpt(Get(a, "title")) ==> it.title == Get(a, "title").value && it.image.alt == it.title)
            && (TruthyOpt(SourceName(a)) ==> it.source == SourceName(a).value)
            && (TruthyOpt(Get(a, "publishedAt")) ==> it.date == toDate(Get(a, "publishedAt").value))
  {
  }

  /** Each falsy field of an article is replaced by its own fallback, whatever the other
      fields hold. */
  lemma ItemFallbacks(a: Value, toDate: Value -> Option<Stamp>)
    requires ItemOf(a, toDate).Ok?
    ensures var it := ItemOf(a, toDate).value;
            && (!TruthyOpt(Get(a, "url")) ==> it.href == Str("#"))
            && (!TruthyOpt(Get(a, "urlToImage")) ==> it.image.src == Str(PlaceholderImage))
            && (!TruthyOpt(Get(a, "title")) ==> it.title == Str("Untitled") && it.image.alt == Str("Article image"))
            && (!TruthyOpt(SourceName(a)) ==> it.source == Str(""))
            && (!TruthyOpt(Get(a, "description")) ==> it.description.None?)
            && (!TruthyOpt(Get(a, "publishedAt")) ==> it.date.None?)
  {
  }

  /** An article with none of the fields gets every fallback. */
  lemma BareArticle(a: Value, toDate: Value -> Option<Stamp>)
    requires !a.Null?
    requires forall k :: k in ["url", "urlToImage", "title", "description", "source", "publishedAt"] ==> !TruthyOpt(Get(a, k))
    ensures ItemOf(a, toDate) ==
      Ok(Item(Str("#"), Image(Str(PlaceholderImage), Str("Article image")), Str("Untitled"), None, Str(""), None))
  {
    assert !TruthyOpt(Get(a, "source"));
    assert !TruthyOpt(SourceName(a)) by {
      if Get(a, "source").Some? {
        assert !Truthy(Get(a, "source").value);
      }
    }
  }

  // ---------------------------------------------------------------------------
  // The feed

  /** What the block ends up showing: the error message, the empty-feed message, or
      one card per article. */
  datatype Feed = Failed | NoArticles | Items(items: seq<Item>)

  /** A reply the cards are read from: fetched, `ok`, parsed, and not `null` (reading
      `data.articles` from `null` throws). */
  predicate Delivered(resp: Response) {
    resp.Response? && resp.ok && resp.json.Some? && !resp.json.value.Null?
  }

  /** `Array.isArray(data.articles) ? data.articles : []`. */
  function ArticleList(data: Value): seq<Value> {
    match Get(data, "articles")
    case Some(Arr(xs)) => xs
    case _ => []
  }

  /** The articles `showArticles` walks through: the first `limit` of the list. */
  function Selected(resp: Response, limit: int): (xs: seq<Value>)
    requires Delivered(resp)
    ensures xs <= ArticleList(resp.json.value)
  {
    SliceTo(ArticleList(resp.json.value), limit)
  }

  /** `showArticles` from the fetch on. Any exception in the `try` (a failed fetch, a
      reply that is not `ok` or not JSON, a `null` payload or article, an invalid date)
      clears the cards built so far and shows the error message. */
  function ShowArticles(resp: Response, limit: int, toDate: Value -> Option<Stamp>): (f: Feed)
    ensures f == NoArticles <==> Delivered(resp) && Selected(resp, limit) == []
    ensures f.Items? <==> Delivered(resp) && Selected(resp, limit) != []
                          && forall i :: 0 <= i < |Selected(resp, limit)| ==> ItemOf(Selected(resp, limit)[i], toDate).Ok?
    ensures f.Items? ==> |f.items| == |Selected(resp, limit)|
    ensures f.Items? ==> forall i :: 0 <= i < |f.items| ==> ItemOf(Selected(resp, limit)[i], toDate) == Ok(f.items[i])
  {
    if !Delivered(resp) then Failed
    else
      var articles := Selected(resp, limit);
      if articles == [] then NoArticles
      else
        match MapAll(articles, (a: Value) => ItemOf(a, toDate))
        case Ok(items) => Items(items)
        case Err(_) => Failed
  }

  /** `init` after the block check: the table decides the feed address and the limit,
      `fetch` answers the request. */
  function Init(rows: seq<Row>, fetch: string -> Response, builtIn: string, toDate: Value -> Option<Stamp>): (f: Feed)
    ensures var url := Last(rows, "feedapi");
            var limit := Last(rows, "limit");
            f == ShowArticles(
                   fetch(if url.Some? && url.value != "" then url.value else builtIn),
                   match limit case Some(v) => Limit(FromParse(ParseInt(v))) case None => 8,
                   toDate)
  {
    var c := ParseConfig(rows);
    ParseConfigByLastRow(rows);
    ShowArticles(fetch(Endpoint(c, builtIn)), Limit(c.initialLoad), toDate)
  }

  /** `init(block)` from the block's table cells. A row with fewer than two cells
      throws in `parseBlockConfig`, before anything is fetched or shown; otherwise the
      block shows what `Init` says for the rows' first two cells. */
  function Block(cells: seq<seq<string>>, fetch: string -> Response, builtIn: string, toDate: Value -> Option<Stamp>): (r: Result<Feed, Failure>)
    ensures (exists i :: 0 <= i < |cells| && |cells[i]| < 2) ==> r == Err(TypeError)
    ensures (forall i :: 0 <= i < |cells| ==> |cells[i]| >= 2) ==>
      && ReadTable(cells).Some?
      && r == Ok(Init(ReadTable(cells).value, fetch, builtIn, toDate))
  {
    match ReadTable(cells)
    case None => Err(TypeError)
    case Some(rows) => Ok(Init(rows, fetch, builtIn, toDate))
  }

  /** With a positive limit the cards are the first `limit` articles, or all of them
      when there are fewer. */
  lemma PositiveLimit(resp: Response, limit: int, toDate: Value -> Option<Stamp>)
    requires limit > 0
    requires ShowArticles(resp, limit, toDate).Items?
    ensures var xs := ArticleList(resp.json.value);
            var items := ShowArticles(resp, limit, toDate).items;
            && |items| == (if limit < |xs| then limit else |xs|)
            && forall i :: 0 <= i < |items| ==> ItemOf(xs[i], toDate) == Ok(items[i])
  {
  }

  /** A negative limit drops that many articles from the end of the list. */
  lemma NegativeLimit(resp: Response, limit: int, toDate: Value -> Option<Stamp>)
    requires limit < 0
    requires ShowArticles(resp, limit, toDate).Items?
    ensures |ShowArticles(resp, limit, toDate).items| == |ArticleList(resp.json.value)| + limit
  {
  }

  /** A table without a usable `limit` row shows at most eight cards. */
  lemma AtMostEightByDefault(rows: seq<Row>, fetch: string -> Response, builtIn: string, toDate: Value -> Option<Stamp>)
    requires Last(rows, "limit").None?
    requires Init(rows, fetch, builtIn, toDate).Items?
    ensures |Init(rows, fetch, builtIn, toDate).items| <= 8
  {
    LimitFromTable(rows);
  }

  /** A reply without an `articles` array shows the empty-feed message, whatever the limit. */
  lemma NoArrayNoArticles(resp: Response, limit: int, toDate: Value -> Option<Stamp>)
    requires Delivered(resp)
    requires !(Get(resp.json.value, "articles").Some? && Get(resp.json.value, "articles").value.Arr?)
    ensures ShowArticles(resp, limit, toDate) == NoArticles
  {
  }

  /** One article with an invalid publication date among those selected replaces the
      whole list with the error message. */
  lemma InvalidDateFailsFeed(resp: Response, limit: int, toDate: Value -> Option<Stamp>, i: nat)
    requires Delivered(resp)
    requires i < |Selected(resp, limit)|
    requires TruthyOpt(Get(Selected(resp, limit)[i], "publishedAt"))
    requires toDate(Get(Selected(resp, limit)[i], "publishedAt").value).None?
    ensures ShowArticles(resp, limit, toDate) == Failed
  {
  }
}

=== FILE: pages.dfy ===
/** The range rendering and "Load More" paging of the article list
    (`renderCards` and `showMore` in blocks/list-with-filter/list-with-filter.js),
    stated for any way `draw` of turning an item into a card that may throw. */
module Pages {
  import opened Wrappers
  import opened Json

  /** The smaller of two integers. */
  function MinInt(a: int, b: int): int {
    if a <= b then a else b
  }

  /** What `renderCards` appended, and the `end` it returned. */
  datatype Rendered<C> = Rendered(cards: seq<C>, end: Numeric)

  /** `renderCards(container, data, start, count)`: cards for `data[start..end)` with
      `end = Math.min(start + count, data.length)`. Nothing is drawn when the range is
      empty or NaN; a range that starts before the data draws `data[-1]`, which is
      `undefined`, and fails with `missing`. */
  function RenderRange<T, C, E>(draw: T -> Result<C, E>, missing: E, data: seq<T>, start: Numeric, count: Numeric): (r: Result<Rendered<C>, E>)
    ensures r.Ok? ==> r.value.end == Min(Plus(start, count), Int(|data|))
    ensures r.Ok? && !Less(start, r.value.end) ==> r.value.cards == []
    ensures r.Ok? && Less(start, r.value.end) ==>
      && 0 <= start.value
      && |r.value.cards| == r.value.end.value - start.value
      && forall k :: 0 <= k < |r.value.cards| ==>
           draw(data[start.value + k]).Ok? && r.value.cards[k] == draw(data[start.value + k]).value
    ensures r.Err? ==> Less(start, Min(Plus(start, count), Int(|data|)))
    ensures var end := Min(Plus(start, count), Int(|data|));
            r.Ok? <==> !Less(start, end) || (0 <= start.value && MapAll(data[start.value..end.value], draw).Ok?)
  {
    var end := Min(Plus(start, count), Int(|data|));
    if !Less(start, end) then Ok(Rendered([], end))
    else if start.value < 0 then Err(missing)
    else
      var items := data[start.value..end.value];
      var cards :- MapAll(items, draw);
      assert forall k :: 0 <= k < |items| ==> items[k] == data[start.value + k];
      Ok(Rendered(cards, end))
  }

  /** The state of the list: the filtered items, the page size and the `loadMore` flag
      it was opened with, `currentIndex`, the cards shown so far, and whether the
      "Load More" button is on the page. Re-adding the button removes the old one
      first, so there is never more than one. */
  datatype Paging<T, C> = Paging(
    filtered: seq<T>,
    pageSize: Numeric,
    loadMore: bool,
    index: Numeric,
    shown: seq<C>,
    button: bool)

  /** `showMore()`: render the next page, then show the button exactly when loading more
      is enabled and items remain. */
  function ShowMore<T, C, E>(draw: T -> Result<C, E>, missing: E, p: Paging<T, C>): (r: Result<Paging<T, C>, E>)
    ensures r.Ok? ==> r.value.filtered == p.filtered && r.value.pageSize == p.pageSize && r.value.loadMore == p.loadMore
    ensures r.Ok? ==> r.value.index == Min(Plus(p.index, p.pageSize), Int(|p.filtered|))
    ensures r.Ok? ==> (r.value.button <==> p.loadMore && Less(r.value.index, Int(|p.filtered|)))
    ensures r.Ok? ==> p.shown <= r.value.shown
    ensures var end := Min(Plus(p.index, p.pageSize), Int(|p.filtered|));
            r.Ok? <==> !Less(p.index, end) || (0 <= p.index.value && MapAll(p.filtered[p.index.value..end.value], draw).Ok?)
  {
    var rendered :- RenderRange(draw, missing, p.filtered, p.index, p.pageSize);
    Ok(p.(index := rendered.end,
          shown := p.shown + rendered.cards,
          button := p.loadMore && Less(rendered.end, Int(|p.filtered|))))
  }

  /** The list before its first page: nothing shown, no button, index 0. */
  function Unopened<T, C>(filtered: seq<T>, pageSize: Numeric, loadMore: bool): Paging<T, C> {
    Paging(filtered, pageSize, loadMore, Int(0), [], false)
  }

  /** `showMore` run `k` times. */
  function ShowMoreTimes<T, C, E>(draw: T -> Result<C, E>, missing: E, p: Paging<T, C>, k: nat): Result<Paging<T, C>, E>
    decreases k
  {
    if k == 0 then Ok(p)
    else
      var q :- ShowMore(draw, missing, p);
      ShowMoreTimes(draw, missing, q, k - 1)
  }

  /** The shown cards are those of the items before the current index. */
  ghost predicate Consistent<T, C, E>(draw: T -> Result<C, E>, p: Paging<T, C>) {
    && p.index.Int? && 0 <= p.index.value <= |p.filtered|
    && MapAll(p.filtered[..p.index.value], draw) == Ok(p.shown)
  }

  /** When every item can be drawn, rendering `count = n` items from `i` draws the
      items from `i` up to the end of that page or of the data, whichever is first. */
  lemma RenderRangeAll<T, C, E>(draw: T -> Result<C, E>, missing: E, data: seq<T>, i: nat, n: nat)
    requires i <= |data|
    requires MapAll(data, draw).Ok?
    ensures MapAll(data[i..MinInt(i + n, |data|)], draw).Ok?
    ensures RenderRange(draw, missing, data, Int(i), Int(n))
         == Ok(Rendered(MapAll(data[i..MinInt(i + n, |data|)], draw).value, Int(MinInt(i + n, |data|))))
  {
    var e := MinInt(i + n, |data|);
    assert Min(Plus(Int(i), Int(n)), Int(|data|)) == Int(e);
    MapAllSlice(data, draw, i, e);
    if i == e {
      assert data[i..e] == [];
    } else {
      var cards := MapAll(data[i..e], draw).value;
      assert RenderRange(draw, missing, data, Int(i), Int(n)) == Ok(Rendered(cards, Int(e)));
    }
  }

  /** When every item can be drawn, `showMore` from index `i` with page size `n`
      moves the index to the end of the page or of the data and appends that page's
      cards. */
  lemma ShowMoreAll<T, C, E>(draw: T -> Result<C, E>, missing: E, p: Paging<T, C>, n: nat)
    requires p.index.Int? && 0 <= p.index.value <= |p.filtered| && p.pageSize == Int(n)
    requires MapAll(p.filtered, draw).Ok?
    ensures var e := MinInt(p.index.value + n, |p.filtered|);
            && MapAll(p.filtered[p.index.value..e], draw).Ok?
            && ShowMore(draw, missing, p)
               == Ok(p.(index := Int(e),
                        shown := p.shown + MapAll(p.filtered[p.index.value..e], draw).value,
                        button := p.loadMore && e < |p.filtered|))
  {
    RenderRangeAll(draw, missing, p.filtered, p.index.value, n);
  }

  /** The cards of a prefix followed by those of the next stretch are the cards of the
      longer prefix. */
  lemma PrefixGrows<T, C, E>(draw: T -> Result<C, E>, xs: seq<T>, i: nat, e: nat, shown: seq<C>)
    requires i <= e <= |xs|
    requires MapAll(xs[..i], draw) == Ok(shown) && MapAll(xs[i..e], draw).Ok?
    ensures MapAll(xs[..e], draw) == Ok(shown + MapAll(xs[i..e], draw).value)
  {
    MapAllAppend(xs[..i], xs[i..e], draw);
    assert xs[..i] + xs[i..e] == xs[..e];
  }

  /** With a page size of `n >= 0` and items that can all be drawn, one `showMore`
      advances the index by `n`, stopping at the end, and shows exactly the cards of
      the items now before it. */
  lemma ShowMoreStep<T, C, E>(draw: T -> Result<C, E>, missing: E, p: Paging<T, C>, n: nat)
    requires Consistent(draw, p) && p.pageSize == Int(n)
    requires MapAll(p.filtered, draw).Ok?
    ensures ShowMore(draw, missing, p).Ok?
    ensures Consistent(draw, ShowMore(draw, missing, p).value)
    ensures ShowMore(draw, missing, p).value.index == Int(MinInt(p.index.value + n, |p.filtered|))
  {
    ShowMoreAll(draw, missing, p, n);
    PrefixGrows(draw, p.filtered, p.index.value, MinInt(p.index.value + n, |p.filtered|), p.shown);
  }

  /** From a consistent state, `k` runs of `showMore` leave the index at
      `min(index + k * n, length)` and the shown cards consistent; after at least one,
      the button is there exactly when loading more is enabled and items remain. */
  lemma {:induction false} ShowMoreProgress<T, C, E>(draw: T -> Result<C, E>, missing: E, p: Paging<T, C>, n: nat, k: nat)
    requires Consistent(draw, p) && p.pageSize == Int(n)
    requires MapAll(p.filtered, draw).Ok?
    ensures ShowMoreTimes(draw, missing, p, k).Ok?
    ensures var q := ShowMoreTimes(draw, missing, p, k).value;
            && Consistent(draw, q) && q.filtered == p.filtered && q.pageSize == p.pageSize && q.loadMore == p.loadMore
            && q.index == Int(MinInt(p.index.value + k * n, |p.filtered|))
            && (k > 0 ==> (q.button <==> p.loadMore && q.index.value < |p.filtered|))
    decreases k
  {
    if k > 0 {
      ShowMoreStep(draw, missing, p, n);
      var q := ShowMore(draw, missing, p).value;
      ShowMoreProgress(draw, missing, q, n, k - 1);
      PagesAdd(p.index.value, n, k, |p.filtered|);
    }
  }

  /** One page of `n` and then `k - 1` more, each stopping at `len`, is `k` pages
      stopping at `len`. */
  lemma PagesAdd(i: int, n: nat, k: nat, len: int)
    requires k > 0 && i <= len
    ensures MinInt(MinInt(i + n, len) + (k - 1) * n, len) == MinInt(i + k * n, len)
  {
    assert k * n == n + (k - 1) * n;
    assert (k - 1) * n >= 0;
  }

  /** How many items `m` pages of `n` cover, at most all `len` of them. */
  function Covered(m: nat, n: nat, len: nat): (e: nat)
    ensures e <= len
  {
    MinInt(m * n, len)
  }

  /** Opening the list with page size `n >= 0` and then clicking "Load More" until
      `m >= 1` pages have been asked for shows the cards of the first `m * n` items
      (all of them if there are fewer), in order, and leaves the button exactly when
      loading more is enabled and items remain. */
  lemma OpenProgress<T, C, E>(draw: T -> Result<C, E>, missing: E, filtered: seq<T>, n: nat, loadMore: bool, m: nat)
    requires m > 0
    requires MapAll(filtered, draw).Ok?
    ensures ShowMoreTimes(draw, missing, Unopened(filtered, Int(n), loadMore), m).Ok?
    ensures var q := ShowMoreTimes(draw, missing, Unopened(filtered, Int(n), loadMore), m).value;
            var seen := Covered(m, n, |filtered|);
            && q.index == Int(seen)
            && Ok(q.shown) == MapAll(filtered[..seen], draw)
            && (q.button <==> loadMore && seen < |filtered|)
  {
    var start: Paging<T, C> := Unopened(filtered, Int(n), loadMore);
    UnopenedConsistent<T, C, E>(draw, filtered, n, loadMore);
    ShowMoreProgress(draw, missing, start, n, m);
    assert 0 + m * n == m * n;
  }

  /** Before the first page nothing is shown, which is consistent. */
  lemma UnopenedConsistent<T, C, E>(draw: T -> Result<C, E>, filtered: seq<T>, n: nat, loadMore: bool)
    ensures Consistent(draw, Unopened<T, C>(filtered, Int(n), loadMore))
  {
    assert filtered[..0] == [];
  }

  /** With a page size of 0 the first page is empty, yet the button is shown whenever
      loading more is enabled and there are items; clicking it changes nothing, so it
      never goes away. */
  lemma ZeroPageSizeStalls<T, C, E>(draw: T -> Result<C, E>, missing: E, filtered: seq<T>)
    requires filtered != []
    ensures ShowMore(draw, missing, Unopened<T, C>(filtered, Int(0), true)).Ok?
    ensures var first := ShowMore(draw, missing, Unopened<T, C>(filtered, Int(0), true)).value;
            first.shown == [] && first.button && ShowMore(draw, missing, first) == Ok(first)
  {
    var p0: Paging<T, C> := Unopened(filtered, Int(0), true);
    var r0 := RenderRange(draw, missing, filtered, Int(0), Int(0));
    assert r0 == Ok(Rendered([], Int(0)));
    var first := p0.(index := Int(0), shown := [] + [], button := true);
    assert ShowMore(draw, missing, p0) == Ok(first);
    assert first.shown == [];
    assert ShowMore(draw, missing, first) == Ok(first);
  }

  /** A page size that is not a number shows nothing and no button. */
  lemma NaNPageSize<T, C, E>(draw: T -> Result<C, E>, missing: E, filtered: seq<T>, loadMore: bool)
    ensures ShowMore(draw, missing, Unopened<T, C>(filtered, NaN, loadMore)).Ok?
    ensures var first := ShowMore(draw, missing, Unopened<T, C>(filtered, NaN, loadMore)).value;
            first.shown == [] && !first.button
  {
  }

  /** For each key in order, the card of what `find` finds for it; a key that finds
      nothing adds nothing, and the first error, of a search or of a drawing, ends the
      whole. */
  function DrawFound<K, T, C, E>(keys: seq<K>, find: K -> Result<Option<T>, E>, draw: T -> Result<C, E>): (r: Result<seq<C>, E>)
    ensures r.Ok? ==> |r.value| <= |keys|
    ensures r.Ok? ==> forall i :: 0 <= i < |keys| ==> find(keys[i]).Ok?
  {
    if keys == [] then Ok([])
    else
      var found :- find(keys[0]);
      var head :- match found
        case Some(item) => (var card :- draw(item); Ok([card]))
        case None => Ok([]);
      var rest :- DrawFound(keys[1..], find, draw);
      assert forall i :: 1 <= i < |keys| ==> keys[i] == keys[1..][i - 1];
      Ok(head + rest)
  }

  /** What the searches find for the keys, in key order, skipping keys that find
      nothing; the first failing search ends the whole. */
  function FoundAll<K, T, E>(keys: seq<K>, find: K -> Result<Option<T>, E>): Result<seq<T>, E> {
    if keys == [] then Ok([])
    else
      var found :- find(keys[0]);
      var rest :- FoundAll(keys[1..], find);
      Ok((if found.Some? then [found.value] else []) + rest)
  }

  /** Searching and drawing key by key succeeds exactly when searching every key and
      then drawing everything found does, and gives the same cards. */
  lemma {:induction false} DrawFoundByParts<K, T, C, E>(keys: seq<K>, find: K -> Result<Option<T>, E>, draw: T -> Result<C, E>)
    ensures DrawFound(keys, find, draw).Ok? <==> FoundAll(keys, find).Ok? && MapAll(FoundAll(keys, find).value, draw).Ok?
    ensures DrawFound(keys, find, draw).Ok? ==> Ok(DrawFound(keys, find, draw).value) == MapAll(FoundAll(keys, find).value, draw)
  {
    if keys != [] {
      DrawFoundByParts(keys[1..], find, draw);
      var f := find(keys[0]);
      if f.Ok? && FoundAll(keys[1..], find).Ok? {
        var rest := FoundAll(keys[1..], find).value;
        if f.value.Some? {
          var x := f.value.value;
          var items := [x] + rest;
          assert items[0] == x && items[1..] == rest;
          assert FoundAll(keys, find) == Ok(items);
          if DrawFound(keys, find, draw).Ok? {
            assert DrawFound(keys, find, draw).value == [draw(x).value] + DrawFound(keys[1..], find, draw).value;
            assert MapAll(items, draw) == Ok([draw(x).value] + MapAll(rest, draw).value);
          }
        } else {
          assert [] + rest == rest;
          assert FoundAll(keys, find) == Ok(rest);
          if DrawFound(keys, find, draw).Ok? {
            var later := DrawFound(keys[1..], find, draw).value;
            assert DrawFound(keys, find, draw).value == [] + later;
            assert [] + later == later;
          }
        }
      }
    }
  }

  /** When every key finds something that can be drawn, there is one card per key, in
      key order. */
  lemma {:induction false} AllFound<K, T, C, E>(keys: seq<K>, find: K -> Result<Option<T>, E>, draw: T -> Result<C, E>)
    requires forall i :: 0 <= i < |keys| ==> find(keys[i]).Ok? && find(keys[i]).value.Some?
    requires forall i :: 0 <= i < |keys| ==> draw(find(keys[i]).value.value).Ok?
    ensures DrawFound(keys, find, draw).Ok?
    ensures |DrawFound(keys, find, draw).value| == |keys|
    ensures forall i :: 0 <= i < |keys| ==>
              DrawFound(keys, find, draw).value[i] == draw(find(keys[i]).value.value).value
  {
    if keys != [] {
      assert forall i :: 1 <= i < |keys| ==> keys[i] == keys[1..][i - 1];
      AllFound(keys[1..], find, draw);
    }
  }

  /** When no key finds anything, and no search fails, there are no cards. */
  lemma {:induction false} NoneFound<K, T, C, E>(keys: seq<K>, find: K -> Result<Option<T>, E>, draw: T -> Result<C, E>)
    requires forall i :: 0 <= i < |keys| ==> find(keys[i]) == Ok(None)
    ensures DrawFound(keys, find, draw) == Ok([])
  {
    if keys != [] {
      assert forall i :: 1 <= i < |keys| ==> keys[i] == keys[1..][i - 1];
      NoneFound(keys[1..], find, draw);
    }
  }
}

=== FILE: seqs.dfy ===
/** Sequence operations the widgets use: `Array.prototype.filter`,
    `Array.prototype.slice(0, end)`, and the first-appearance ordering that
    both `Object.keys` and the chart's unit-to-axis numbering follow. */
module Seqs {

  /** `a` can be obtained from `b` by deleting elements: an order-preserving subsequence. */
  ghost predicate IsSubseq<T>(a: seq<T>, b: seq<T>)
    decreases |b|
  {
    if a == [] then true
    else if b == [] then false
    else (a[0] == b[0] && IsSubseq(a[1..], b[1..])) || IsSubseq(a, b[1..])
  }

  /** No element occurs twice. */
  ghost predicate NoDup<T>(s: seq<T>) {
    forall i, j :: 0 <= i < j < |s| ==> s[i] != s[j]
  }

  /** The elements of `s` satisfying `p`, in their original order (`Array.prototype.filter`). */
  function Filter<T(!new)>(s: seq<T>, p: T -> bool): (r: seq<T>)
    ensures |r| <= |s|
    ensures forall x :: x in r <==> x in s && p(x)
    ensures forall i :: 0 <= i < |r| ==> p(r[i])
    ensures IsSubseq(r, s)
  {
    if s == [] then []
    else if p(s[0]) then [s[0]] + Filter(s[1..], p)
    else Filter(s[1..], p)
  }

  /** Filtering twice with the same test is filtering once. */
  lemma {:induction false} FilterIdempotent<T(!new)>(s: seq<T>, p: T -> bool)
    ensures Filter(Filter(s, p), p) == Filter(s, p)
  {
    if s != [] {
      FilterIdempotent(s[1..], p);
      if p(s[0]) {
        assert ([s[0]] + Filter(s[1..], p))[1..] == Filter(s[1..], p);
      }
    }
  }

  /** Two successive filters are one filter by the conjunction of their tests. */
  lemma {:induction false} FilterFilter<T(!new)>(s: seq<T>, p: T -> bool, q: T -> bool, pq: T -> bool)
    requires forall x :: pq(x) == (p(x) && q(x))
    ensures Filter(Filter(s, p), q) == Filter(s, pq)
  {
    if s != [] {
      FilterFilter(s[1..], p, q, pq);
      if p(s[0]) {
        assert ([s[0]] + Filter(s[1..], p))[1..] == Filter(s[1..], p);
      }
    }
  }

  /** Filters by tests that agree on every element give the same result. */
  lemma {:induction false} FilterSame<T(!new)>(s: seq<T>, p: T -> bool, q: T -> bool)
    requires forall i :: 0 <= i < |s| ==> p(s[i]) == q(s[i])
    ensures Filter(s, p) == Filter(s, q)
  {
    if s != [] {
      FilterSame(s[1..], p, q);
    }
  }

  /** A filter whose test holds of every element keeps the whole sequence. */
  lemma {:induction false} FilterAll<T(!new)>(s: seq<T>, p: T -> bool)
    requires forall i :: 0 <= i < |s| ==> p(s[i])
    ensures Filter(s, p) == s
  {
    if s != [] {
      FilterAll(s[1..], p);
    }
  }

  /** Filtering a sequence without repetitions leaves none. */
  lemma {:induction false} FilterNoDup<T(!new)>(s: seq<T>, p: T -> bool)
    requires NoDup(s)
    ensures NoDup(Filter(s, p))
  {
    if s != [] {
      FilterNoDup(s[1..], p);
      assert s[0] !in s[1..];
    }
  }

  /** The elements of `s` in order of first appearance, each once. */
  function Distinct<T(==,!new)>(s: seq<T>): (r: seq<T>)
    ensures forall x :: x in r <==> x in s
    ensures NoDup(r)
    ensures |r| <= |s|
  {
    if s == [] then []
    else
      var init := s[..|s| - 1];
      var d := Distinct(init);
      assert s == init + [s[|s| - 1]];
      if s[|s| - 1] in init then d else d + [s[|s| - 1]]
  }

  /** Appending an element extends the distinct elements exactly when it is new. */
  lemma DistinctSnoc<T(!new)>(s: seq<T>, x: T)
    ensures Distinct(s + [x]) == if x in s then Distinct(s) else Distinct(s) + [x]
  {
    assert (s + [x])[..|s|] == s;
  }

  /** The position of the first occurrence of `x` in `s`. */
  function IndexOf<T(==)>(s: seq<T>, x: T): (i: nat)
    requires x in s
    ensures i < |s| && s[i] == x
    ensures x !in s[..i]
  {
    if s[0] == x then 0 else 1 + IndexOf(s[1..], x)
  }

  /** In a sequence without repetitions the position of an element is its only index. */
  lemma IndexOfNoDup<T>(s: seq<T>, i: nat)
    requires NoDup(s) && i < |s|
    ensures IndexOf(s, s[i]) == i
  {
    var k := IndexOf(s, s[i]);
    assert s[k] == s[i];
  }

  /** Positions of old elements do not move when something is appended. */
  lemma {:induction false} IndexOfSnoc<T>(s: seq<T>, y: T, x: T)
    requires x in s
    ensures IndexOf(s + [y], x) == IndexOf(s, x)
  {
    if s[0] != x {
      assert (s + [y])[1..] == s[1..] + [y];
      IndexOfSnoc(s[1..], y, x);
    }
  }

  /** First appearances keep their order among the distinct elements. */
  lemma {:induction false} DistinctKeepsFirstOrder<T(!new)>(s: seq<T>, a: T, b: T)
    requires a in s && b in s
    requires IndexOf(s, a) < IndexOf(s, b)
    ensures IndexOf(Distinct(s), a) < IndexOf(Distinct(s), b)
    decreases |s|
  {
    var init := s[..|s| - 1];
    var last := s[|s| - 1];
    assert s == init + [last];
    DistinctSnoc(init, last);
    var d := Distinct(init);
    if b in init {
      assert a in init by {
        assert s[IndexOf(init, b)] == b;
        assert s[IndexOf(s, a)] == a;
        assert IndexOf(s, a) < IndexOf(s, b) <= IndexOf(init, b);
        assert init[IndexOf(s, a)] == a;
      }
      IndexOfSnoc(init, last, a);
      IndexOfSnoc(init, last, b);
      DistinctKeepsFirstOrder(init, a, b);
      if last !in init {
        IndexOfSnoc(d, last, a);
        IndexOfSnoc(d, last, b);
      }
    } else {
      assert b == last;
      assert a in init by {
        assert s[IndexOf(s, a)] == a;
        assert IndexOf(s, a) < |s| - 1;
        assert init[IndexOf(s, a)] == a;
      }
      IndexOfSnoc(d, last, a);
      IndexOfNoDup(d + [last], |d|);
    }
  }

  /** `Array.prototype.slice(0, end)`: a negative `end` counts back from the end. */
  function SliceTo<T>(s: seq<T>, end: int): (r: seq<T>)
    ensures |r| <= |s| && r == s[..|r|]
    ensures end >= 0 ==> |r| == (if end < |s| then end else |s|)
    ensures end < 0 ==> |r| == (if |s| + end > 0 then |s| + end else 0)
  {
    if end >= 0 then s[..if end < |s| then end else |s|]
    else s[..if |s| + end > 0 then |s| + end else 0]
  }
}

=== FILE: strings.dfy ===
/** The JavaScript string operations the widgets rely on: `trim`, `split(',')`,
    `join(',')`, `toLowerCase`, `replace(/\s/g, '-')`, `includes`, `parseInt(_, 10)`
    and the decimal rendering of a counter in a template literal. */
module Strings {
  import opened Wrappers
  import opened Seqs

  /** JavaScript whitespace: the WhiteSpace and LineTerminator code points, the set
      that both `String.prototype.trim` and the regular-expression class `\s` match. */
  predicate IsSpace(c: char) {
    || c == '\t' || c == '\n' || c == '\U{B}' || c == '\U{C}' || c == '\r' || c == ' '
    || c == '\U{A0}' || c == '\U{1680}' || ('\U{2000}' <= c <= '\U{200A}')
    || c == '\U{2028}' || c == '\U{2029}' || c == '\U{202F}' || c == '\U{205F}'
    || c == '\U{3000}' || c == '\U{FEFF}'
  }

  ghost predicate AllSpace(s: string) {
    forall i :: 0 <= i < |s| ==> IsSpace(s[i])
  }

  /** `String.prototype.trimStart`: the suffix left after dropping leading whitespace. */
  function TrimStart(s: string): (r: string)
    ensures |r| <= |s| && r == s[|s| - |r|..]
    ensures forall i :: 0 <= i < |s| - |r| ==> IsSpace(s[i])
    ensures r == [] || !IsSpace(r[0])
  {
    if s != [] && IsSpace(s[0]) then TrimStart(s[1..]) else s
  }

  /** `String.prototype.trimEnd`: the prefix left after dropping trailing whitespace. */
  function TrimEnd(s: string): (r: string)
    ensures |r| <= |s| && r == s[..|r|]
    ensures forall i :: |r| <= i < |s| ==> IsSpace(s[i])
    ensures r == [] || !IsSpace(r[|r| - 1])
  {
    if s != [] && IsSpace(s[|s| - 1]) then TrimEnd(s[..|s| - 1]) else s
  }

  /** `r` is the slice of `s` starting at `a`, and everything around it is whitespace. */
  ghost predicate TrimmedAt(s: string, r: string, a: int) {
    0 <= a && a + |r| <= |s| && r == s[a..a + |r|]
    && (forall i :: 0 <= i < a ==> IsSpace(s[i]))
    && (forall i :: a + |r| <= i < |s| ==> IsSpace(s[i]))
  }

  /** Trimming the start and then the end leaves a slice surrounded by whitespace. */
  lemma TrimStartEnd(s: string)
    ensures TrimmedAt(s, TrimEnd(TrimStart(s)), |s| - |TrimStart(s)|)
  {
    SlicedAt(s, TrimStart(s), TrimEnd(TrimStart(s)));
  }

  /** A prefix `r` of a suffix `t` of `s`, with only whitespace cut off either end, is
      a slice of `s` surrounded by whitespace. */
  lemma SlicedAt(s: string, t: string, r: string)
    requires |t| <= |s| && t == s[|s| - |t|..]
    requires forall i :: 0 <= i < |s| - |t| ==> IsSpace(s[i])
    requires |r| <= |t| && r == t[..|r|]
    requires forall i :: |r| <= i < |t| ==> IsSpace(t[i])
    ensures TrimmedAt(s, r, |s| - |t|)
  {
    var a := |s| - |t|;
    forall i | a + |r| <= i < |s| ensures IsSpace(s[i]) {
      assert s[i] == t[i - a];
    }
  }

  /** `String.prototype.trim`: the one slice of `s` that neither starts nor ends with
      whitespace and is surrounded only by whitespace. */
  function Trim(s: string): (r: string)
    ensures |r| <= |s|
    ensures r == [] || (!IsSpace(r[0]) && !IsSpace(r[|r| - 1]))
    ensures exists a :: TrimmedAt(s, r, a)
    ensures r == [] <==> AllSpace(s)
  {
    TrimStartEnd(s);
    var r := TrimEnd(TrimStart(s));
    var a := |s| - |TrimStart(s)|;
    assert r != [] ==> r[0] == s[a];
    r
  }

  /** A string without surrounding whitespace is its own trim; in particular trimming is idempotent. */
  lemma TrimFixed(s: string)
    requires s == [] || (!IsSpace(s[0]) && !IsSpace(s[|s| - 1]))
    ensures Trim(s) == s
  {
  }

  /** Leading whitespace disappears under `trimStart`. */
  lemma {:induction false} TrimStartSpaces(pre: string, s: string)
    requires AllSpace(pre)
    requires s == [] || !IsSpace(s[0])
    ensures TrimStart(pre + s) == s
  {
    if pre != [] {
      assert (pre + s)[1..] == pre[1..] + s;
      TrimStartSpaces(pre[1..], s);
    }
  }

  /** `Array.prototype.join(sep)`: the parts with one separator between neighbours. */
  function Join(parts: seq<string>, sep: char): string
  {
    if |parts| == 0 then []
    else if |parts| == 1 then parts[0]
    else parts[0] + [sep] + Join(parts[1..], sep)
  }

  /** `String.prototype.split(sep)` for a one-character separator: the maximal
      separator-free pieces, empty ones included, so never an empty list. */
  function Split(s: string, sep: char): (r: seq<string>)
    ensures |r| >= 1
    ensures forall i :: 0 <= i < |r| ==> sep !in r[i]
  {
    if s == [] then [[]]
    else
      var rest := Split(s[1..], sep);
      if s[0] == sep then [[]] + rest
      else [[s[0]] + rest[0]] + rest[1..]
  }

  /** Joining the pieces of a split restores the string. */
  lemma {:induction false} JoinSplit(s: string, sep: char)
    ensures Join(Split(s, sep), sep) == s
  {
    if s != [] {
      var rest := Split(s[1..], sep);
      JoinSplit(s[1..], sep);
      if s[0] == sep {
        assert ([[]] + rest)[1..] == rest;
      } else {
        var r := [[s[0]] + rest[0]] + rest[1..];
        assert r[1..] == rest[1..];
        if |rest| > 1 {
          assert Join(rest, sep) == rest[0] + [sep] + Join(rest[1..], sep);
          assert Join(r, sep) == [s[0]] + rest[0] + [sep] + Join(rest[1..], sep);
        }
        assert s == [s[0]] + s[1..];
      }
    }
  }

  /** Splitting a join of separator-free parts gives the parts back. */
  lemma {:induction false} SplitJoin(parts: seq<string>, sep: char)
    requires |parts| >= 1
    requires forall i :: 0 <= i < |parts| ==> sep !in parts[i]
    ensures Split(Join(parts, sep), sep) == parts
  {
    if |parts| == 1 {
      SplitFree(parts[0], sep);
    } else {
      SplitJoin(parts[1..], sep);
      SplitPrefix(parts[0], sep, Join(parts[1..], sep));
      assert [parts[0]] + parts[1..] == parts;
    }
  }

  /** A string without the separator is a single piece. */
  lemma {:induction false} SplitFree(s: string, sep: char)
    requires sep !in s
    ensures Split(s, sep) == [s]
  {
    if s != [] {
      SplitFree(s[1..], sep);
      assert s == [s[0]] + s[1..];
    }
  }

  /** A separator-free head becomes the first piece; the pieces of the tail follow. */
  lemma {:induction false} SplitPrefix(head: string, sep: char, tail: string)
    requires sep !in head
    ensures Split(head + [sep] + tail, sep) == [head] + Split(tail, sep)
  {
    if head == [] {
      assert head + [sep] + tail == [sep] + tail;
      assert ([sep] + tail)[1..] == tail;
    } else {
      var s := head + [sep] + tail;
      assert s[1..] == head[1..] + [sep] + tail;
      SplitPrefix(head[1..], sep, tail);
      assert head == [head[0]] + head[1..];
    }
  }

  /** Each string trimmed. */
  function TrimAll(ps: seq<string>): (r: seq<string>)
    ensures |r| == |ps|
    ensures forall i :: 0 <= i < |ps| ==> r[i] == Trim(ps[i])
  {
    seq(|ps|, i requires 0 <= i < |ps| => Trim(ps[i]))
  }

  /** A trimmed string has no character its source lacks. */
  lemma TrimKeepsOut(s: string, c: char)
    requires c !in s
    ensures c !in Trim(s)
  {
    var t := TrimStart(s);
    assert forall x :: x in t ==> x in s;
    var r := TrimEnd(t);
    assert forall x :: x in r ==> x in t;
  }

  /** The trimmed pieces are exactly the trims of the pieces, and none holds a character the pieces lack. */
  lemma TrimAllMembers(ps: seq<string>, c: char)
    requires forall i :: 0 <= i < |ps| ==> c !in ps[i]
    ensures forall x :: x in TrimAll(ps) <==> exists p :: p in ps && Trim(p) == x
    ensures forall x :: x in TrimAll(ps) ==> c !in x
  {
    var ts := TrimAll(ps);
    forall x | x in ts ensures (exists p :: p in ps && Trim(p) == x) && c !in x {
      var i :| 0 <= i < |ts| && ts[i] == x;
      assert ps[i] in ps;
      TrimKeepsOut(ps[i], c);
    }
    forall x | exists p :: p in ps && Trim(p) == x ensures x in ts {
      var p :| p in ps && Trim(p) == x;
      var i :| 0 <= i < |ps| && ps[i] == p;
      assert ts[i] == x;
    }
  }

  /** `Boolean` on a string: it is non-empty. */
  predicate Filled(p: string) {
    p != []
  }

  /** The members of `r` are exactly the non-empty trims of the pieces `ps`. */
  ghost predicate TrimsOf(r: seq<string>, ps: seq<string>) {
    forall x :: x in r <==> x != [] && exists p :: p in ps && Trim(p) == x
  }

  /** The non-empty trims of separator-free pieces are non-empty, separator-free and
      trimmed. */
  lemma FilledTrimsShape(ps: seq<string>, c: char)
    requires forall i :: 0 <= i < |ps| ==> c !in ps[i]
    ensures forall i :: 0 <= i < |Filter(TrimAll(ps), Filled)| ==>
              Filter(TrimAll(ps), Filled)[i] != [] && c !in Filter(TrimAll(ps), Filled)[i]
    ensures forall i :: 0 <= i < |Filter(TrimAll(ps), Filled)| ==>
              !IsSpace(Filter(TrimAll(ps), Filled)[i][0])
              && !IsSpace(Filter(TrimAll(ps), Filled)[i][|Filter(TrimAll(ps), Filled)[i]| - 1])
  {
    TrimAllMembers(ps, c);
    var ts := TrimAll(ps);
    var r := Filter(ts, Filled);
    forall i | 0 <= i < |r| ensures r[i] != [] && c !in r[i] {
      assert r[i] in ts;
    }
    forall i | 0 <= i < |r| ensures !IsSpace(r[i][0]) && !IsSpace(r[i][|r[i]| - 1]) {
      assert r[i] in ts;
      var k :| 0 <= k < |ts| && ts[k] == r[i];
    }
  }

  /** The non-empty trims of the pieces, filtered from their trims. */
  lemma FilledTrimsMembers(ps: seq<string>)
    ensures TrimsOf(Filter(TrimAll(ps), Filled), ps)
  {
    var ts := TrimAll(ps);
    forall x ensures x in ts <==> exists p :: p in ps && Trim(p) == x {
      if x in ts {
        var i :| 0 <= i < |ts| && ts[i] == x;
        assert ps[i] in ps;
      }
      if exists p :: p in ps && Trim(p) == x {
        var p :| p in ps && Trim(p) == x;
        var i :| 0 <= i < |ps| && ps[i] == p;
        assert ts[i] == x;
      }
    }
  }

  /** `s.split(',').map((v) => v.trim()).filter(Boolean)`: the non-blank comma-separated
      entries of `s`, trimmed, in order. */
  function SplitList(s: string): seq<string> {
    Filter(TrimAll(Split(s, ',')), Filled)
  }

  /** The entries of a comma-separated list are non-empty, comma-free and trimmed. */
  lemma SplitListEntries(s: string)
    ensures forall i :: 0 <= i < |SplitList(s)| ==> SplitList(s)[i] != [] && ',' !in SplitList(s)[i]
    ensures forall i :: 0 <= i < |SplitList(s)| ==>
              !IsSpace(SplitList(s)[i][0]) && !IsSpace(SplitList(s)[i][|SplitList(s)[i]| - 1])
  {
    FilledTrimsShape(Split(s, ','), ',');
  }

  /** The entries of a comma-separated list are exactly the non-empty trims of its
      comma-separated pieces. */
  lemma SplitListMembers(s: string)
    ensures TrimsOf(SplitList(s), Split(s, ','))
  {
    FilledTrimsMembers(Split(s, ','));
  }

  /** The ASCII part of `toLowerCase`: A-Z map to a-z, every other character is kept. */
  function LowerChar(c: char): (d: char)
  {
    if 'A' <= c <= 'Z' then (c as int - 'A' as int + 'a' as int) as char else c
  }

  function Lower(s: string): (r: string)
    ensures |r| == |s|
    ensures forall i :: 0 <= i < |s| ==> r[i] == LowerChar(s[i])
  {
    seq(|s|, i requires 0 <= i < |s| => LowerChar(s[i]))
  }

  /** `key.toLowerCase().replace(/\s/g, '-')`: the form in which configuration keys are compared. */
  function NormalizeKey(k: string): (r: string)
    ensures |r| == |k|
    ensures forall i :: 0 <= i < |r| ==> !IsSpace(r[i]) && !('A' <= r[i] <= 'Z')
    ensures forall i :: 0 <= i < |r| ==> (r[i] == '-' <==> k[i] == '-' || IsSpace(k[i]))
    ensures forall i :: 0 <= i < |r| ==> r[i] == '-' || r[i] == LowerChar(k[i])
  {
    seq(|k|, i requires 0 <= i < |k| => if IsSpace(LowerChar(k[i])) then '-' else LowerChar(k[i]))
  }

  /** Normalising a normalised key changes nothing. */
  lemma NormalizeKeyIdempotent(k: string)
    ensures NormalizeKey(NormalizeKey(k)) == NormalizeKey(k)
  {
  }

  predicate IsDigit(c: char) {
    '0' <= c <= '9'
  }

  ghost predicate AllDigits(s: string) {
    forall i :: 0 <= i < |s| ==> IsDigit(s[i])
  }

  /** The number a string of decimal digits denotes. */
  function DigitsValue(ds: string): nat
    requires AllDigits(ds)
  {
    if ds == [] then 0 else DigitsValue(ds[..|ds| - 1]) * 10 + (ds[|ds| - 1] as int - '0' as int)
  }

  /** The decimal rendering of a natural number, as a template literal writes it. */
  function NatToString(n: nat): (r: string)
    ensures r != [] && AllDigits(r)
    ensures DigitsValue(r) == n
    ensures n > 0 ==> r[0] != '0'
  {
    var d := ('0' as int + n % 10) as char;
    if n < 10 then [d]
    else
      var high := NatToString(n / 10);
      assert (high + [d])[..|high|] == high;
      high + [d]
  }

  /** Different numbers are rendered differently. */
  lemma NatToStringInjective(a: nat, b: nat)
    requires NatToString(a) == NatToString(b)
    ensures a == b
  {
  }

  /** The longest prefix of decimal digits. */
  function DigitPrefix(s: string): (r: string)
    ensures |r| <= |s| && r == s[..|r|] && AllDigits(r)
    ensures |r| == |s| || !IsDigit(s[|r|])
  {
    if s != [] && IsDigit(s[0]) then [s[0]] + DigitPrefix(s[1..]) else []
  }

  /** The digit prefix of digits followed by a non-digit is those digits. */
  lemma {:induction false} DigitPrefixOf(ds: string, rest: string)
    requires AllDigits(ds)
    requires rest == [] || !IsDigit(rest[0])
    ensures DigitPrefix(ds + rest) == ds
  {
    if ds != [] {
      assert (ds + rest)[1..] == ds[1..] + rest;
      DigitPrefixOf(ds[1..], rest);
      assert ds == [ds[0]] + ds[1..];
    } else {
      assert ds + rest == rest;
    }
  }

  /** `parseInt(s, 10)`: leading whitespace, an optional sign, then the longest run of
      decimal digits; None stands for NaN, the result when that run is empty. */
  function ParseInt(s: string): Option<int>
  {
    ParseSigned(TrimStart(s))
  }

  /** `parseInt` once the leading whitespace is gone. */
  function ParseSigned(t: string): Option<int>
  {
    if t != [] && t[0] == '-' then
      match ParseDigits(t[1..])
      case Some(v) => Some(-(v as int))
      case None => None
    else if t != [] && t[0] == '+' then ParseDigits(t[1..])
    else ParseDigits(t)
  }

  /** The value of the longest run of leading digits, None when there is none. */
  function ParseDigits(u: string): Option<nat>
  {
    var ds := DigitPrefix(u);
    if ds == [] then None else Some(DigitsValue(ds))
  }

  /** Digits followed by a non-digit read as their value. */
  lemma ParseDigitsOf(ds: string, rest: string)
    requires ds != [] && AllDigits(ds)
    requires rest == [] || !IsDigit(rest[0])
    ensures ParseDigits(ds + rest) == Some(DigitsValue(ds))
  {
    DigitPrefixOf(ds, rest);
  }

  /** A rendered number followed by a non-digit reads back as that number. */
  lemma ParseDigitsNat(n: nat, rest: string)
    requires rest == [] || !IsDigit(rest[0])
    ensures ParseDigits(NatToString(n) + rest) == Some(n)
  {
    ParseDigitsOf(NatToString(n), rest);
  }

  /** A minus sign negates the digits that follow it. */
  lemma ParseSignedMinus(u: string, v: nat)
    requires ParseDigits(u) == Some(v)
    ensures ParseSigned(['-'] + u) == Some(-(v as int))
  {
    assert (['-'] + u)[1..] == u;
  }

  /** Concatenation regrouped to the right. */
  lemma Regroup(a: string, b: string, c: string, d: string)
    ensures a + b + c + d == a + (b + (c + d))
  {
  }

  /** Whitespace in front does not change what `parseInt` reads. */
  lemma ParseIntAfterSpaces(pre: string, t: string)
    requires AllSpace(pre)
    requires t == [] || !IsSpace(t[0])
    ensures ParseInt(pre + t) == ParseSigned(t)
  {
    TrimStartSpaces(pre, t);
  }

  /** Reading back a rendered number: whitespace before it and a non-digit tail after it
      (as in `"12px"`) are ignored. */
  lemma ParseIntNatToString(pre: string, n: nat, rest: string)
    requires AllSpace(pre)
    requires rest == [] || !IsDigit(rest[0])
    ensures ParseInt(pre + NatToString(n) + rest) == Some(n)
  {
    var t := NatToString(n) + rest;
    assert pre + NatToString(n) + rest == pre + t;
    assert t[0] == NatToString(n)[0];
    ParseIntAfterSpaces(pre, t);
    ParseDigitsNat(n, rest);
  }

  /** The same with a minus sign in front, read back negated. */
  lemma ParseIntNegative(pre: string, n: nat, rest: string)
    requires AllSpace(pre)
    requires rest == [] || !IsDigit(rest[0])
    ensures ParseInt(pre + "-" + NatToString(n) + rest) == Some(-(n as int))
  {
    var u := NatToString(n) + rest;
    Regroup(pre, "-", NatToString(n), rest);
    ParseDigitsNat(n, rest);
    ParseSignedMinus(u, n);
    ParseIntAfterSpaces(pre, ['-'] + u);
  }

  predicate StartsWith(s: string, t: string) {
    |t| <= |s| && s[..|t|] == t
  }

  /** `String.prototype.includes`: `t` occurs in `s` (the empty string occurs everywhere). */
  predicate Contains(s: string, t: string)
    decreases |s|
  {
    StartsWith(s, t) || (s != [] && Contains(s[1..], t))
  }

  /** `t` occurs in `s` at position `i`. */
  ghost predicate OccursAt(s: string, t: string, i: int) {
    0 <= i && i + |t| <= |s| && s[i..i + |t|] == t
  }

  /** `Contains` holds exactly when `t` is a slice of `s` at some position. */
  lemma {:induction false} ContainsAt(s: string, t: string)
    ensures Contains(s, t) <==> exists i :: OccursAt(s, t, i)
  {
    if s != [] {
      ContainsAt(s[1..], t);
      if StartsWith(s, t) {
        assert OccursAt(s, t, 0);
      } else if Contains(s[1..], t) {
        var i :| OccursAt(s[1..], t, i);
        assert s[i + 1..i + 1 + |t|] == s[1..][i..i + |t|];
        assert OccursAt(s, t, i + 1);
      }
      if exists i :: OccursAt(s, t, i) {
        var i :| OccursAt(s, t, i);
        if i > 0 {
          assert s[1..][i - 1..i - 1 + |t|] == s[i..i + |t|];
          assert OccursAt(s[1..], t, i - 1);
        } else {
          assert s[..|t|] == s[0..|t|];
        }
      }
    } else {
      if exists i :: OccursAt(s, t, i) {
        var i :| OccursAt(s, t, i);
        assert |t| == 0;
        assert StartsWith(s, t);
      }
      if Contains(s, t) {
        assert OccursAt(s, t, 0);
      }
    }
  }
}

=== FILE: weather.dfy ===
/** The weather chart (blocks/weather/weather.js) without the page, the network
    and Chart.js: the forecast request, the checks on the returned payload, one
    label per timestamp, one coloured dataset per plotted parameter, and the
    grouping of the datasets onto y-axes by unit. */
module Weather {
  import opened Wrappers
  import opened Seqs
  import opened Strings
  import opened Json

  const Endpoint: string := "https://api.open-meteo.com/v1/forecast"
  const FixedLatitude: string := "-37.814"
  const FixedLongitude: string := "144.9633"
  const TimeZone: string := "Australia/Sydney"

  /** The series colours, handed out by dataset position. */
  const Palette: seq<string> :=
    ["#037691", "#c95109", "#991ad6", "#da1710", "#2a9d8f", "#e9c46a", "#264653", "#f4a261"]

  /** The options a chart is drawn with. The coordinates are kept as written in the
      page; the request does not use them. */
  datatype Options = Options(
    latitude: Option<string>,
    longitude: Option<string>,
    hourly: seq<string>,
    models: Option<string>,
    title: Option<string>)

  /** A forecast request: the endpoint and the query parameters in the order
      `URLSearchParams.set` first inserted them. */
  datatype Request = Request(endpoint: string, query: seq<(string, string)>)

  /** The value of query parameter `key`, if present. */
  function Param(query: seq<(string, string)>, key: string): Option<string>
  {
    if query == [] then None
    else if query[0].0 == key then Some(query[0].1)
    else Param(query[1..], key)
  }

  /** The forecast request for `o`: fixed coordinates and time zone, the parameter list
      comma-joined under `hourly` when there is one, and `models` when it is non-empty. */
  function BuildUrl(o: Options): (r: Request)
    ensures r.endpoint == Endpoint
    ensures Param(r.query, "latitude") == Some(FixedLatitude)
    ensures Param(r.query, "longitude") == Some(FixedLongitude)
    ensures Param(r.query, "timezone") == Some(TimeZone)
    ensures Param(r.query, "hourly").Some? <==> |o.hourly| > 0
    ensures |o.hourly| > 0 ==> Param(r.query, "hourly") == Some(Join(o.hourly, ','))
    ensures Param(r.query, "models").Some? <==> o.models.Some? && o.models.value != ""
    ensures o.models.Some? && o.models.value != "" ==> Param(r.query, "models") == o.models
    ensures NoDup(Names(r.query))
    ensures forall k :: k in Names(r.query) ==> k in ["latitude", "longitude", "hourly", "models", "timezone"]
  {
    var hourly := if |o.hourly| > 0 then [("hourly", Join(o.hourly, ','))] else [];
    var models := if o.models.Some? && o.models.value != "" then [("models", o.models.value)] else [];
    var query := Query(hourly, models);
    QueryFacts(hourly, models, query);
    QueryNames(hourly, models, query);
    Request(Endpoint, query)
  }

  /** The query in insertion order: the coordinates, the optional parameters, the time zone. */
  function Query(hourly: seq<(string, string)>, models: seq<(string, string)>): seq<(string, string)>
  {
    [("latitude", FixedLatitude), ("longitude", FixedLongitude)] + hourly + models + [("timezone", TimeZone)]
  }

  /** Where each parameter of the request is found. */
  lemma QueryFacts(hourly: seq<(string, string)>, models: seq<(string, string)>, q: seq<(string, string)>)
    requires hourly == [] || (|hourly| == 1 && hourly[0].0 == "hourly")
    requires models == [] || (|models| == 1 && models[0].0 == "models")
    requires q == Query(hourly, models)
    ensures Param(q, "latitude") == Some(FixedLatitude)
    ensures Param(q, "longitude") == Some(FixedLongitude)
    ensures Param(q, "timezone") == Some(TimeZone)
    ensures Param(q, "hourly") == (if hourly == [] then None else Some(hourly[0].1))
    ensures Param(q, "models") == (if models == [] then None else Some(models[0].1))
  {
    var coords := [("latitude", FixedLatitude), ("longitude", FixedLongitude)];
    var zone := [("timezone", TimeZone)];
    assert q == coords + (hourly + (models + zone));
    ParamSkip(coords, hourly + (models + zone), "timezone");
    ParamSkip(hourly, models + zone, "timezone");
    ParamSkip(models, zone, "timezone");
    ParamSkip(coords, hourly + (models + zone), "hourly");
    ParamSkip(coords, hourly + (models + zone), "models");
    ParamSkip(hourly, models + zone, "models");
    ParamSkip(models, zone, "hourly");
    ParamSkip(zone, [], "hourly");
    ParamSkip(zone, [], "models");
    assert zone + [] == zone;
    if hourly == [] {
      ParamSkip(hourly, models + zone, "hourly");
    }
    if models == [] {
      ParamSkip(models, zone, "models");
    }
  }

  /** No parameter is set twice. */
  lemma QueryNames(hourly: seq<(string, string)>, models: seq<(string, string)>, q: seq<(string, string)>)
    requires hourly == [] || (|hourly| == 1 && hourly[0].0 == "hourly")
    requires models == [] || (|models| == 1 && models[0].0 == "models")
    requires q == Query(hourly, models)
    ensures NoDup(Names(q))
    ensures forall k :: k in Names(q) ==> k in ["latitude", "longitude", "hourly", "models", "timezone"]
  {
    var names := Names(q);
    var optional := (if hourly == [] then [] else ["hourly"]) + (if models == [] then [] else ["models"]);
    assert names == ["latitude", "longitude"] + optional + ["timezone"];
  }

  /** Parameters that a prefix does not set are looked up after it. */
  lemma {:induction false} ParamSkip(a: seq<(string, string)>, b: seq<(string, string)>, key: string)
    requires forall i :: 0 <= i < |a| ==> a[i].0 != key
    ensures Param(a + b, key) == Param(b, key)
  {
    if a != [] {
      assert (a + b)[1..] == a[1..] + b;
      ParamSkip(a[1..], b, key);
    } else {
      assert a + b == b;
    }
  }

  function Names(query: seq<(string, string)>): (r: seq<string>)
    ensures |r| == |query|
    ensures forall i :: 0 <= i < |query| ==> r[i] == query[i].0
  {
    seq(|query|, i requires 0 <= i < |query| => query[i].0)
  }

  /** The caller's coordinates never reach the request: only the parameter list and the model do. */
  lemma CoordinatesIgnored(o1: Options, o2: Options)
    requires o1.hourly == o2.hourly && o1.models == o2.models
    ensures BuildUrl(o1) == BuildUrl(o2)
  {
  }

  /** The `hourly` query value splits back into the requested parameters when their
      names hold no comma. */
  lemma HourlyRoundTrip(o: Options)
    requires |o.hourly| > 0
    requires forall i :: 0 <= i < |o.hourly| ==> ',' !in o.hourly[i]
    ensures Split(Param(BuildUrl(o).query, "hourly").value, ',') == o.hourly
  {
    SplitJoin(o.hourly, ',');
  }

  /** `getColor(i)`: the palette entry at position `i`, wrapping after eight. */
  function Color(i: nat): (c: string)
    ensures c in Palette
  {
    Palette[i % |Palette|]
  }

  /** Colours depend on position alone: two positions share a colour exactly when
      they are congruent modulo the palette size. */
  lemma ColorByPosition(i: nat, j: nat)
    ensures Color(i) == Color(j) <==> i % 8 == j % 8
  {
    var a, b := i % 8, j % 8;
    assert Palette[a][1] != Palette[b][1] || Palette[a][2] != Palette[b][2] <== a != b;
  }

  /** `toLabels`: one label per timestamp, in order; anything but an array gives none.
      The locale rendering of a timestamp is the parameter `format`. */
  function Labels(time: Value, format: Value -> string): (labels: seq<string>)
    ensures time.Arr? ==> |labels| == |time.items|
    ensures time.Arr? ==> forall i :: 0 <= i < |labels| ==> labels[i] == format(time.items[i])
    ensures !time.Arr? ==> labels == []
  {
    if time.Arr? then seq(|time.items|, i requires 0 <= i < |time.items| => format(time.items[i]))
    else []
  }

  /** Why a chart could not be drawn. */
  datatype Error =
    | NetworkError            // fetch rejected
    | FetchFailed(status: nat, body: string)  // a response whose `ok` is false
    | InvalidJson             // `res.json()` rejected
    | NullPayload             // `data.hourly` read from a `null` payload
    | NoHourlyTime            // `hourly.time` missing or falsy

  /** `fetchWeather` after the request is sent: the parsed payload or the failure. */
  function FetchWeather(resp: Response): (r: Result<Value, Error>)
    ensures resp.NetworkFailure? ==> r == Err(NetworkError)
    ensures resp.Response? && !resp.ok ==> r == Err(FetchFailed(resp.status, resp.body))
    ensures r.Ok? <==> resp.Response? && resp.ok && resp.json.Some?
    ensures r.Ok? ==> r.value == resp.json.value
  {
    match resp
    case NetworkFailure => Err(NetworkError)
    case Response(ok, status, body, json) =>
      if !ok then Err(FetchFailed(status, body))
      else if json.None? then Err(InvalidJson)
      else Ok(json.value)
  }

  /** `data.hourly?.time`. */
  function TimeOf(data: Value): Option<Value>
  {
    match Get(data, "hourly")
    case Some(h) => Get(h, "time")
    case None => None
  }

  /** The payload carries a usable time series: `hourly.time` is present and truthy. */
  predicate HasTime(data: Value) {
    TimeOf(data).Some? && Truthy(TimeOf(data).value)
  }

  /** The parameters to plot: the requested ones in order when there are any, otherwise
      every key of the payload's `hourly` object except `time`. */
  function PlotParams(o: Options, hourly: Value): (ps: seq<string>)
    ensures |o.hourly| > 0 ==> ps == o.hourly
    ensures |o.hourly| == 0 ==> NoDup(ps)
    ensures |o.hourly| == 0 ==> forall k :: k in ps <==> k != "time" && Get(hourly, k).Some?
    ensures |o.hourly| == 0 ==> IsSubseq(ps, Keys(hourly))
  {
    if |o.hourly| > 0 then o.hourly
    else
      var keys := Keys(hourly);
      var ps := Filter(keys, (k: string) => k != "time");
      FilterNoDup(keys, (k: string) => k != "time");
      ps
  }

  /** `data.hourly_units?.[param] ?? ''`: the unit of a parameter, `""` when unknown. */
  function UnitOf(data: Value, param: string): Value
  {
    var units := Get(data, "hourly_units");
    Coalesce(if units.Some? then Get(units.value, param) else None, Str(""))
  }

  function Units(data: Value, params: seq<string>): (us: seq<Value>)
    ensures |us| == |params|
    ensures forall i :: 0 <= i < |params| ==> us[i] == UnitOf(data, params[i])
  {
    seq(|params|, i requires 0 <= i < |params| => UnitOf(data, params[i]))
  }

  datatype Position = Left | Right

  /** A y-axis: its id, its side, whether its grid lines cross the chart area, and
      the title it shows (the unit, when the unit is truthy). */
  datatype Axis = Axis(id: string, position: Position, gridOnChartArea: bool, title: Option<Value>)

  /** The id of the `k`-th axis allocated, `y${k}`. */
  function AxisId(k: nat): string {
    "y" + NatToString(k)
  }

  /** Axis ids name their allocation order uniquely. */
  lemma AxisIdInjective(a: nat, b: nat)
    requires AxisId(a) == AxisId(b)
    ensures a == b
  {
    assert AxisId(a)[1..] == NatToString(a);
    assert AxisId(b)[1..] == NatToString(b);
    NatToStringInjective(a, b);
  }

  /** The `k`-th axis allocated, for `unit`: only the first sits on the left and draws grid lines. */
  function NewAxis(k: nat, unit: Value): Axis {
    Axis(AxisId(k), if k == 0 then Left else Right, k == 0, if Truthy(unit) then Some(unit) else None)
  }

  /** The state of the grouping loop: `unitToAxisId`, the axes allocated so far in
      order (their number is `axisCount`), and the axis id given to each dataset. */
  datatype Grouping = Grouping(axisOf: map<Value, string>, axes: seq<Axis>, ids: seq<string>)

  /** One pass of the loop body: reuse the unit's axis, or allocate the next one. */
  function Step(g: Grouping, unit: Value): Grouping {
    if unit in g.axisOf then g.(ids := g.ids + [g.axisOf[unit]])
    else
      var id := AxisId(|g.axes|);
      Grouping(g.axisOf[unit := id], g.axes + [NewAxis(|g.axes|, unit)], g.ids + [id])
  }

  /** The loop over the datasets' units, left to right. */
  function GroupFrom(g: Grouping, units: seq<Value>): Grouping
    decreases |units|
  {
    if units == [] then g else GroupFrom(Step(g, units[0]), units[1..])
  }

  /** One axis per distinct unit, numbered in order. */
  ghost function AxesOf(d: seq<Value>): (axes: seq<Axis>)
    ensures |axes| == |d|
  {
    seq(|d|, k requires 0 <= k < |d| => NewAxis(k, d[k]))
  }

  /** Every unit seen, mapped to the id of its axis among the distinct units `d`. */
  ghost function AxisMap(d: seq<Value>, done: seq<Value>): map<Value, string>
    requires forall u :: u in done ==> u in d
  {
    map u | u in done :: AxisId(IndexOf(d, u))
  }

  /** The axis id of each unit seen, in order. */
  ghost function IdsOf(d: seq<Value>, done: seq<Value>): (ids: seq<string>)
    requires forall u :: u in done ==> u in d
    ensures |ids| == |done|
  {
    seq(|done|, i requires 0 <= i < |done| => AxisId(IndexOf(d, done[i])))
  }

  /** The closed form of the loop after it has seen `done`: one axis per distinct unit in
      order of first appearance, and each unit mapped to the id of its axis. */
  ghost function Closed(done: seq<Value>): Grouping {
    var d := Distinct(done);
    Grouping(AxisMap(d, done), AxesOf(d), IdsOf(d, done))
  }

  lemma AxesSnoc(d: seq<Value>, u: Value)
    ensures AxesOf(d + [u]) == AxesOf(d) + [NewAxis(|d|, u)]
  {
  }

  /** A loop step for a unit already seen only records the unit's existing axis. */
  lemma StepSeen(done: seq<Value>, u: Value)
    requires u in done
    ensures Step(Closed(done), u) == Closed(done + [u])
  {
    var d := Distinct(done);
    var done' := done + [u];
    DistinctSnoc(done, u);
    assert Distinct(done') == d;
    AxisMapSeen(d, done, u);
    IdsSeen(d, done, u);
  }

  /** Seeing a unit again adds no entry to the unit map. */
  lemma AxisMapSeen(d: seq<Value>, done: seq<Value>, u: Value)
    requires forall x :: x in done ==> x in d
    requires u in done
    ensures AxisMap(d, done + [u]) == AxisMap(d, done)
  {
    forall x ensures x in done + [u] <==> x in done {
    }
  }

  /** Seeing a unit again appends its existing id. */
  lemma IdsSeen(d: seq<Value>, done: seq<Value>, u: Value)
    requires forall x :: x in done ==> x in d
    requires u in done
    ensures IdsOf(d, done + [u]) == IdsOf(d, done) + [AxisMap(d, done)[u]]
  {
    var done' := done + [u];
    forall i | 0 <= i < |done'| ensures IdsOf(d, done')[i] == (IdsOf(d, done) + [AxisMap(d, done)[u]])[i] {
      if i < |done| {
        assert done'[i] == done[i];
      }
    }
  }

  /** Adding a new unit at the end of the distinct units keeps every old unit's id. */
  lemma AxisMapSnoc(d: seq<Value>, done: seq<Value>, u: Value)
    requires forall x :: x in done ==> x in d
    requires NoDup(d + [u]) && u !in done
    ensures AxisMap(d + [u], done + [u]) == AxisMap(d, done)[u := AxisId(|d|)]
  {
    var d' := d + [u];
    IndexOfNoDup(d', |d|);
    forall x | x in d ensures IndexOf(d', x) == IndexOf(d, x) {
      IndexOfSnoc(d, u, x);
    }
    var m, m' := AxisMap(d, done), AxisMap(d', done + [u]);
    var n := m[u := AxisId(|d|)];
    forall x ensures x in m' <==> x in n {
      assert x in done + [u] <==> x in done || x == u;
    }
    forall x | x in m' ensures m'[x] == n[x] {
      if x != u {
        assert x in done;
      }
    }
    assert m' == n;
  }

  /** Adding a new unit at the end of the distinct units keeps every old unit's id. */
  lemma IdsSnoc(d: seq<Value>, done: seq<Value>, u: Value)
    requires forall x :: x in done ==> x in d
    requires NoDup(d + [u]) && u !in done
    ensures IdsOf(d + [u], done + [u]) == IdsOf(d, done) + [AxisId(|d|)]
  {
    var d' := d + [u];
    IndexOfNoDup(d', |d|);
    var done' := done + [u];
    forall i | 0 <= i < |done'| ensures IdsOf(d', done')[i] == (IdsOf(d, done) + [AxisId(|d|)])[i] {
      if i < |done| {
        assert done'[i] == done[i];
        IndexOfSnoc(d, u, done[i]);
      }
    }
  }

  /** A loop step for a new unit allocates the next axis. */
  lemma StepNew(done: seq<Value>, u: Value)
    requires u !in done
    ensures Step(Closed(done), u) == Closed(done + [u])
  {
    var d := Distinct(done);
    DistinctSnoc(done, u);
    assert Distinct(done + [u]) == d + [u];
    AxesSnoc(d, u);
    AxisMapSnoc(d, done, u);
    IdsSnoc(d, done, u);
  }

  /** The whole loop computes the closed form. */
  lemma {:induction false} GroupFromClosed(done: seq<Value>, rest: seq<Value>)
    ensures GroupFrom(Closed(done), rest) == Closed(done + rest)
    decreases |rest|
  {
    if rest == [] {
      assert done + rest == done;
    } else {
      assert done + rest == (done + [rest[0]]) + rest[1..];
      if rest[0] in done {
        StepSeen(done, rest[0]);
      } else {
        StepNew(done, rest[0]);
      }
      GroupFromClosed(done + [rest[0]], rest[1..]);
    }
  }

  /** Lines 173-200: the axis of every dataset, given the datasets' units in order.
      Axes are numbered `y0, y1, ...` in order of each unit's first appearance. */
  function Group(units: seq<Value>): (g: Grouping)
    ensures |g.ids| == |units|
    ensures |g.axes| == |Distinct(units)|
    ensures forall k :: 0 <= k < |g.axes| ==> g.axes[k] == NewAxis(k, Distinct(units)[k])
    ensures forall i :: 0 <= i < |units| ==> g.ids[i] == AxisId(IndexOf(Distinct(units), units[i]))
  {
    var start := Grouping(map[], [], []);
    assert start == Closed([]);
    GroupFromClosed([], units);
    assert [] + units == units;
    GroupFrom(start, units)
  }

  /** A dataset as handed to Chart.js. */
  datatype Dataset = Dataset(param: string, data: Value, axisId: string, borderColor: string, backgroundColor: string)

  datatype ChartTitle = ChartTitle(display: bool, text: string)

  /** The chart configuration: labels, datasets and axes (in `scales` order), title. */
  datatype Chart = Chart(labels: seq<string>, datasets: seq<Dataset>, axes: seq<Axis>, title: ChartTitle)

  /** One dataset per parameter, on the axis `ids` gives it, coloured by position. */
  function Datasets(hourly: Value, params: seq<string>, ids: seq<string>): (ds: seq<Dataset>)
    requires |ids| == |params|
    ensures |ds| == |params|
    ensures forall i :: 0 <= i < |ds| ==>
      && ds[i].param == params[i]
      && ds[i].data == Coalesce(Get(hourly, params[i]), Arr([]))
      && ds[i].axisId == ids[i]
      && ds[i].borderColor == Color(i)
      && ds[i].backgroundColor == Color(i) + "40"
  {
    seq(|params|, i requires 0 <= i < |params| =>
      Dataset(params[i], Coalesce(Get(hourly, params[i]), Arr([])), ids[i], Color(i), Color(i) + "40"))
  }

  /** `data.hourly`, which is an object whenever the time check passed. */
  function Hourly(data: Value): Value {
    Get(data, "hourly").GetOr(Obj([]))
  }

  /** Lines 145-213 after the fetch: reject a payload without a usable `hourly.time`,
      then build one dataset per plotted parameter and group them onto axes by unit. */
  function BuildChart(o: Options, data: Value, format: Value -> string): (r: Result<Chart, Error>)
    ensures r.Err? <==> data.Null? || !HasTime(data)
    ensures r.Ok? ==> r.value.labels == Labels(TimeOf(data).value, format)
    ensures r.Ok? ==> |r.value.datasets| == |PlotParams(o, Hourly(data))|
    ensures r.Ok? ==> forall i :: 0 <= i < |r.value.datasets| ==>
      var ds := r.value.datasets[i];
      var p := PlotParams(o, Hourly(data))[i];
      && ds.param == p
      && ds.data == Coalesce(Get(Hourly(data), p), Arr([]))
      && ds.borderColor == Color(i)
      && ds.backgroundColor == Color(i) + "40"
    ensures r.Ok? ==> (r.value.title.display <==> o.title.Some? && o.title.value != "")
    ensures r.Ok? ==>
      var units := Units(data, PlotParams(o, Hourly(data)));
      && |r.value.axes| == |Distinct(units)|
      && (forall k :: 0 <= k < |r.value.axes| ==> r.value.axes[k] == NewAxis(k, Distinct(units)[k]))
      && forall i :: 0 <= i < |r.value.datasets| ==> r.value.datasets[i].axisId == AxisId(IndexOf(Distinct(units), units[i]))
  {
    if data.Null? then Err(NullPayload)
    else if !HasTime(data) then Err(NoHourlyTime)
    else
      var hourly := Hourly(data);
      var params := PlotParams(o, hourly);
      var g := Group(Units(data, params));
      var datasets := Datasets(hourly, params, g.ids);
      var title := if o.title.Some? && o.title.value != "" then ChartTitle(true, o.title.value) else ChartTitle(false, "");
      Ok(Chart(Labels(TimeOf(data).value, format), datasets, g.axes, title))
  }

  /** `renderWeatherChart` from the fetch on: a failed fetch is the chart's error. */
  function RenderChart(o: Options, resp: Response, format: Value -> string): (r: Result<Chart, Error>)
    ensures FetchWeather(resp).Err? ==> r == Err(FetchWeather(resp).error)
    ensures FetchWeather(resp).Ok? ==> r == BuildChart(o, FetchWeather(resp).value, format)
  {
    var data :- FetchWeather(resp);
    BuildChart(o, data, format)
  }

  /** Every dataset is labelled, and colours come from its position alone. */
  lemma DatasetColours(o: Options, data: Value, format: Value -> string, i: nat, j: nat)
    requires BuildChart(o, data, format).Ok?
    requires i < |BuildChart(o, data, format).value.datasets|
    requires j < |BuildChart(o, data, format).value.datasets|
    ensures var ds := BuildChart(o, data, format).value.datasets;
            ds[i].borderColor == ds[j].borderColor <==> i % 8 == j % 8
  {
    ColorByPosition(i, j);
  }

  /** Two datasets share an axis exactly when their units are equal. */
  lemma AxisSharing(o: Options, data: Value, format: Value -> string, i: nat, j: nat)
    requires BuildChart(o, data, format).Ok?
    requires i < |BuildChart(o, data, format).value.datasets|
    requires j < |BuildChart(o, data, format).value.datasets|
    ensures var ds := BuildChart(o, data, format).value.datasets;
            ds[i].axisId == ds[j].axisId <==> UnitOf(data, ds[i].param) == UnitOf(data, ds[j].param)
  {
    var params := PlotParams(o, Hourly(data));
    var units := Units(data, params);
    var d := Distinct(units);
    var g := Group(units);
    var ds := BuildChart(o, data, format).value.datasets;
    assert ds[i].axisId == g.ids[i] && ds[j].axisId == g.ids[j];
    if g.ids[i] == g.ids[j] {
      AxisIdInjective(IndexOf(d, units[i]), IndexOf(d, units[j]));
    }
  }

  /** The axes are `y0 ... y(k-1)` for the `k` distinct units in order of first
      appearance; `y0` is on the left with grid lines, every other axis on the right
      without; every dataset points at one of them. */
  lemma AxisLayout(o: Options, data: Value, format: Value -> string)
    requires BuildChart(o, data, format).Ok?
    ensures var c := BuildChart(o, data, format).value;
            var units := Units(data, PlotParams(o, Hourly(data)));
            && |c.axes| == |Distinct(units)|
            && (forall k :: 0 <= k < |c.axes| ==> c.axes[k].id == AxisId(k))
            && (forall k :: 0 <= k < |c.axes| ==> (c.axes[k].position == Left <==> k == 0))
            && (forall k :: 0 <= k < |c.axes| ==> (c.axes[k].gridOnChartArea <==> k == 0))
            && (forall i :: 0 <= i < |c.datasets| ==> exists k :: 0 <= k < |c.axes| && c.axes[k].id == c.datasets[i].axisId)
  {
    var c := BuildChart(o, data, format).value;
    var units := Units(data, PlotParams(o, Hourly(data)));
    var g := Group(units);
    assert c.axes == g.axes && |c.datasets| == |units|;
    assert forall i :: 0 <= i < |c.datasets| ==> c.datasets[i].axisId == g.ids[i];
    GroupLayout(units, g);
  }

  /** The axes of a grouping, and every id it hands out names one of them. */
  lemma GroupLayout(units: seq<Value>, g: Grouping)
    requires g == Group(units)
    ensures forall k :: 0 <= k < |g.axes| ==> g.axes[k].id == AxisId(k)
    ensures forall k :: 0 <= k < |g.axes| ==> (g.axes[k].position == Left <==> k == 0)
    ensures forall k :: 0 <= k < |g.axes| ==> (g.axes[k].gridOnChartArea <==> k == 0)
    ensures forall i :: 0 <= i < |units| ==> exists k :: 0 <= k < |g.axes| && g.axes[k].id == g.ids[i]
  {
    var d := Distinct(units);
    forall i | 0 <= i < |units| ensures exists k :: 0 <= k < |g.axes| && g.axes[k].id == g.ids[i] {
      var k := IndexOf(d, units[i]);
      assert g.axes[k].id == g.ids[i];
    }
  }

  /** Axis numbers follow first appearance: a unit met earlier gets a lower-numbered axis. */
  lemma AxisOrder(units: seq<Value>, i: nat, j: nat)
    requires i < |units| && j < |units|
    requires IndexOf(units, units[i]) < IndexOf(units, units[j])
    ensures IndexOf(Distinct(units), units[i]) < IndexOf(Distinct(units), units[j])
  {
    DistinctKeepsFirstOrder(units, units[i], units[j]);
  }

  /** Without a requested list, the plotted parameters are the payload's series keys. */
  lemma PlotsPayloadKeys(o: Options, data: Value, format: Value -> string)
    requires |o.hourly| == 0
    requires BuildChart(o, data, format).Ok?
    ensures var ds := BuildChart(o, data, format).value.datasets;
            forall k :: (exists i :: 0 <= i < |ds| && ds[i].param == k) <==> k != "time" && Get(Hourly(data), k).Some?
  {
    var ds := BuildChart(o, data, format).value.datasets;
    var ps := PlotParams(o, Hourly(data));
    forall k ensures (exists i :: 0 <= i < |ds| && ds[i].param == k) <==> k in ps {
      if k in ps {
        var i := IndexOf(ps, k);
        assert ds[i].param == k;
      }
    }
  }
}

=== FILE: weather_panel.dfy ===
/** The interactive part of the weather block (blocks/weather/weather.js): the
    options read from the block's data attributes, the three checkboxes that choose
    the plotted variables, and the redraw that follows every change. The network
    response and the locale formatting are parameters. */
module WeatherPanel {
  import opened Wrappers
  import opened Seqs
  import opened Strings
  import opened Json
  import opened Weather

  /** A checkbox offered by the panel: its key (shown, capitalised, as the label) and
      the forecast parameter it stands for. */
  datatype Choice = Choice(key: string, param: string)

  /** The panel's checkboxes, in the order they are drawn. */
  const Choices: seq<Choice> :=
    [Choice("temperature", "temperature_2m"), Choice("rain", "rain"), Choice("snowfall", "snowfall")]

  /** The keys ticked when the page requests no particular parameters. */
  const DefaultKeys: set<string> := {"temperature", "rain"}

  /** A drawn checkbox and its state. */
  datatype Checkbox = Checkbox(key: string, param: string, checked: bool)

  /** The parameters the panel can plot, in panel order. */
  function ChoiceParams(): (ps: seq<string>)
    ensures |ps| == |Choices|
    ensures forall i :: 0 <= i < |Choices| ==> ps[i] == Choices[i].param
  {
    seq(|Choices|, i requires 0 <= i < |Choices| => Choices[i].param)
  }

  /** `createControls(container, initial)`: one checkbox per choice, ticked when the
      page's list names its parameter, or, with no list, for temperature and rain. */
  function CreateControls(initial: seq<string>): (boxes: seq<Checkbox>)
    ensures |boxes| == |Choices|
    ensures forall i :: 0 <= i < |boxes| ==> boxes[i].key == Choices[i].key && boxes[i].param == Choices[i].param
  {
    seq(|Choices|, i requires 0 <= i < |Choices| =>
      Checkbox(Choices[i].key, Choices[i].param,
               if |initial| > 0 then Choices[i].param in initial else Choices[i].key in DefaultKeys))
  }

  /** `getSelected()`: the parameters of the ticked boxes, in panel order. */
  function Selected(boxes: seq<Checkbox>): (ps: seq<string>)
    ensures |ps| <= |boxes|
    ensures forall p :: p in ps <==> exists i :: 0 <= i < |boxes| && boxes[i].checked && boxes[i].param == p
  {
    if boxes == [] then []
    else
      var rest := Selected(boxes[1..]);
      assert forall i :: 1 <= i < |boxes| ==> boxes[i] == boxes[1..][i - 1];
      if boxes[0].checked then [boxes[0].param] + rest else rest
  }

  /** The user clicks the checkbox at position `i`. */
  function Toggle(boxes: seq<Checkbox>, i: nat): (r: seq<Checkbox>)
    requires i < |boxes|
    ensures |r| == |boxes|
    ensures r[i].checked == !boxes[i].checked
    ensures forall j :: 0 <= j < |r| && j != i ==> r[j] == boxes[j]
    ensures r[i].key == boxes[i].key && r[i].param == boxes[i].param
  {
    boxes[i := boxes[i].(checked := !boxes[i].checked)]
  }

  /** Reading the ticks of boxes that carry the parameters `ps` filters `ps` by the
      test that ticked them. */
  lemma {:induction false} SelectedFilter(boxes: seq<Checkbox>, ps: seq<string>, ticked: string -> bool)
    requires |boxes| == |ps|
    requires forall i :: 0 <= i < |boxes| ==> boxes[i].param == ps[i] && boxes[i].checked == ticked(ps[i])
    ensures Selected(boxes) == Filter(ps, ticked)
  {
    if boxes != [] {
      SelectedFilter(boxes[1..], ps[1..], ticked);
    }
  }

  /** Nothing is selected exactly when no box is ticked. */
  lemma SelectedEmpty(boxes: seq<Checkbox>)
    ensures Selected(boxes) == [] <==> forall i :: 0 <= i < |boxes| ==> !boxes[i].checked
  {
    if Selected(boxes) == [] {
      forall i | 0 <= i < |boxes| ensures boxes[i].checked ==> boxes[i].param in Selected(boxes) {
      }
    } else {
      assert Selected(boxes)[0] in Selected(boxes);
    }
  }

  /** The panel's first state selects, in panel order, exactly the offered parameters
      that the page's list names; the list's own order and any parameter the panel
      does not offer are dropped. */
  lemma InitialSelection(initial: seq<string>)
    requires |initial| > 0
    ensures Selected(CreateControls(initial)) == Filter(ChoiceParams(), (p: string) => p in initial)
  {
    SelectedFilter(CreateControls(initial), ChoiceParams(), (p: string) => p in initial);
  }

  /** With no list, temperature and rain are selected. */
  lemma DefaultSelection()
    ensures Selected(CreateControls([])) == ["temperature_2m", "rain"]
  {
    var ticked := (p: string) => p in ["temperature_2m", "rain"];
    var ps := ChoiceParams();
    SelectedFilter(CreateControls([]), ps, ticked);
    assert ps[1..][1..] == ps[2..];
    assert Filter(ps[2..], ticked) == [];
  }

  /** Clicking a box adds its parameter to the selection or removes it, and leaves the
      rest of the selection alone (the panel's parameters are all different). */
  lemma ToggleSelected(boxes: seq<Checkbox>, i: nat, p: string)
    requires i < |boxes|
    requires forall a, b :: 0 <= a < b < |boxes| ==> boxes[a].param != boxes[b].param
    ensures p in Selected(Toggle(boxes, i)) <==> if p == boxes[i].param then !boxes[i].checked else p in Selected(boxes)
  {
    var r := Toggle(boxes, i);
    if p in Selected(r) {
      var j :| 0 <= j < |r| && r[j].checked && r[j].param == p;
      if p != boxes[i].param {
        assert j != i && boxes[j].checked;
      }
    }
    if p == boxes[i].param && !boxes[i].checked {
      assert r[i].checked;
    }
    if p != boxes[i].param && p in Selected(boxes) {
      var j :| 0 <= j < |boxes| && boxes[j].checked && boxes[j].param == p;
      assert r[j] == boxes[j];
    }
  }

  /** Clicking the same box twice restores the panel. */
  lemma ToggleTwice(boxes: seq<Checkbox>, i: nat)
    requires i < |boxes|
    ensures Toggle(Toggle(boxes, i), i) == boxes
  {
  }

  /** `decorate`'s reading of the block's data attributes: `data-hourly` as a
      comma-separated list with blanks dropped, `data-models` and `data-title` when
      non-empty. A missing attribute is absent from `attrs`. */
  function ReadOptions(attrs: map<string, string>): (o: Options)
    ensures (o.hourly != []) ==> "hourly" in attrs
    ensures "hourly" in attrs ==> o.hourly == SplitList(attrs["hourly"])
    ensures o.models.Some? <==> "models" in attrs && attrs["models"] != ""
    ensures o.models.Some? ==> o.models.value == attrs["models"]
    ensures o.title.Some? <==> "title" in attrs && attrs["title"] != ""
    ensures o.title.Some? ==> o.title.value == attrs["title"]
  {
    Options(
      Present(attrs, "latitude"),
      Present(attrs, "longitude"),
      if "hourly" in attrs then SplitList(attrs["hourly"]) else [],
      Present(attrs, "models"),
      Present(attrs, "title"))
  }

  /** A non-empty attribute value. */
  function Present(attrs: map<string, string>, key: string): Option<string> {
    if key in attrs && attrs[key] != "" then Some(attrs[key]) else None
  }

  /** What the chart area shows after a redraw. */
  datatype Display =
    | Prompt                                          // "Select at least one variable to display."
    | Drawn(request: Request, chart: Result<Chart, Error>)

  /** `updateChart` once the debounce fires: with nothing ticked, the prompt and no
      request; otherwise a chart of exactly the ticked parameters. `resp` is what the
      forecast service answers to the request. */
  function UpdateChart(boxes: seq<Checkbox>, opts: Options, resp: Response, format: Value -> string): (d: Display)
    ensures d.Prompt? <==> forall i :: 0 <= i < |boxes| ==> !boxes[i].checked
    ensures d.Drawn? ==> Param(d.request.query, "hourly") == Some(Join(Selected(boxes), ','))
    ensures d.Drawn? && d.chart.Ok? ==> |d.chart.value.datasets| == |Selected(boxes)|
    ensures d.Drawn? && d.chart.Ok? ==>
      forall i :: 0 <= i < |Selected(boxes)| ==> d.chart.value.datasets[i].param == Selected(boxes)[i]
    ensures d.Drawn? ==>
      var o := opts.(hourly := Selected(boxes));
      d.request == BuildUrl(o) && d.chart == RenderChart(o, resp, format)
  {
    var selected := Selected(boxes);
    SelectedEmpty(boxes);
    if selected == [] then
      Prompt
    else
      var o := opts.(hourly := selected);
      Drawn(BuildUrl(o), RenderChart(o, resp, format))
  }

  /** `decorate(block)` up to its first draw: read the attributes, build the panel
      from the requested list, and redraw. */
  function Decorate(attrs: map<string, string>, resp: Response, format: Value -> string): (d: Display)
    ensures var hourly := ReadOptions(attrs).hourly;
            var first := if hourly != [] then Filter(ChoiceParams(), (p: string) => p in hourly)
                         else ["temperature_2m", "rain"];
            && (d.Prompt? <==> first == [])
            && (d.Drawn? ==> Param(d.request.query, "hourly") == Some(Join(first, ',')))
    ensures var hourly := ReadOptions(attrs).hourly;
            var first := if hourly != [] then Filter(ChoiceParams(), (p: string) => p in hourly)
                         else ["temperature_2m", "rain"];
            var o := ReadOptions(attrs).(hourly := first);
            d.Drawn? ==> d.request == BuildUrl(o) && d.chart == RenderChart(o, resp, format)
  {
    var opts := ReadOptions(attrs);
    var boxes := CreateControls(opts.hourly);
    FirstSelection(opts.hourly);
    SelectedEmpty(boxes);
    UpdateChart(boxes, opts, resp, format)
  }

  /** The panel's first selection: the offered parameters the list names, or the
      default pair when there is no list. */
  lemma FirstSelection(hourly: seq<string>)
    ensures Selected(CreateControls(hourly)) ==
      if hourly != [] then Filter(ChoiceParams(), (p: string) => p in hourly) else ["temperature_2m", "rain"]
  {
    if hourly != [] {
      InitialSelection(hourly);
    } else {
      DefaultSelection();
    }
  }

  /** A page without a `data-hourly` list first asks for temperature and rain. */
  lemma FirstDrawDefault(attrs: map<string, string>, resp: Response, format: Value -> string)
    requires "hourly" !in attrs
    ensures Decorate(attrs, resp, format).Drawn?
    ensures Param(Decorate(attrs, resp, format).request.query, "hourly") == Some("temperature_2m,rain")
  {
    DefaultSelection();
    var boxes := CreateControls([]);
    assert boxes[0].checked;
    assert Join(["temperature_2m", "rain"], ',') == "temperature_2m,rain" by {
      assert Join(["rain"], ',') == "rain";
    }
  }

  /** A page whose list names none of the panel's parameters shows the prompt and
      sends no request, whatever its list says. */
  lemma UnofferedListPrompts(attrs: map<string, string>, resp: Response, format: Value -> string)
    requires "hourly" in attrs
    requires SplitList(attrs["hourly"]) != []
    requires forall i :: 0 <= i < |Choices| ==> Choices[i].param !in SplitList(attrs["hourly"])
    ensures Decorate(attrs, resp, format) == Prompt
  {
    var boxes := CreateControls(SplitList(attrs["hourly"]));
    assert forall i :: 0 <= i < |boxes| ==> !boxes[i].checked;
    SelectedEmpty(boxes);
  }

  /** A chart the panel draws plots only parameters the panel offers. */
  lemma DrawnParamsOffered(boxes: seq<Checkbox>, opts: Options, resp: Response, format: Value -> string)
    requires forall i :: 0 <= i < |boxes| ==> boxes[i].param in ChoiceParams()
    ensures var d := UpdateChart(boxes, opts, resp, format);
            d.Drawn? && d.chart.Ok? ==>
              forall i :: 0 <= i < |d.chart.value.datasets| ==> d.chart.value.datasets[i].param in ChoiceParams()
  {
    var d := UpdateChart(boxes, opts, resp, format);
    var sel := Selected(boxes);
    if d.Drawn? && d.chart.Ok? {
      forall i | 0 <= i < |d.chart.value.datasets| ensures d.chart.value.datasets[i].param in ChoiceParams() {
        assert d.chart.value.datasets[i].param == sel[i];
        assert sel[i] in sel;
        var j :| 0 <= j < |boxes| && boxes[j].checked && boxes[j].param == sel[i];
      }
    }
  }
}

=== FILE: wrappers.dfy ===
/** Failure-carrying values returned by the widget models: an optional value
    (JavaScript's `undefined`) and a value-or-error (a thrown exception). */
module Wrappers {

  datatype Option<+T> = None | Some(value: T) {

    /** The value, or `default` when there is none. */
    function GetOr(default: T): T {
      match this
      case Some(v) => v
      case None => default
    }
  }

  datatype Result<+R, +E> = Ok(value: R) | Err(error: E) {

    predicate IsFailure() {
      Err?
    }

    function PropagateFailure<U>(): Result<U, E>
      requires Err?
    {
      Err(error)
    }

    function Extract(): R
      requires Ok?
    {
      value
    }
  }

  /** `f` applied to each element in order, stopping at the first failure. */
  function MapAll<T, U, E>(xs: seq<T>, f: T -> Result<U, E>): (r: Result<seq<U>, E>)
    ensures r.Ok? <==> forall i :: 0 <= i < |xs| ==> f(xs[i]).Ok?
    ensures r.Ok? ==> |r.value| == |xs| && forall i {:trigger r.value[i]} :: 0 <= i < |xs| ==> r.value[i] == f(xs[i]).value
  {
    if xs == [] then Ok([])
    else
      var y :- f(xs[0]);
      var rest :- MapAll(xs[1..], f);
      assert forall i :: 1 <= i < |xs| ==> xs[i] == xs[1..][i - 1];
      Ok([y] + rest)
  }

  /** Mapping two stretches one after the other is mapping both together. */
  lemma MapAllAppend<T, U, E>(a: seq<T>, b: seq<T>, f: T -> Result<U, E>)
    requires MapAll(a, f).Ok? && MapAll(b, f).Ok?
    ensures MapAll(a + b, f) == Ok(MapAll(a, f).value + MapAll(b, f).value)
  {
    var ab := a + b;
    forall i | 0 <= i < |ab| ensures f(ab[i]).Ok? {
      if i < |a| {
        assert ab[i] == a[i];
      } else {
        assert ab[i] == b[i - |a|];
      }
    }
    var r, y := MapAll(ab, f).value, MapAll(a, f).value + MapAll(b, f).value;
    forall i | 0 <= i < |ab| ensures r[i] == y[i] {
      if i < |a| {
        assert ab[i] == a[i];
      } else {
        assert ab[i] == b[i - |a|];
      }
    }
    assert r == y;
  }

  /** Every stretch of a sequence that maps without error maps without error. */
  lemma MapAllSlice<T, U, E>(xs: seq<T>, f: T -> Result<U, E>, i: nat, j: nat)
    requires i <= j <= |xs|
    requires MapAll(xs, f).Ok?
    ensures MapAll(xs[i..j], f).Ok?
  {
    forall k | 0 <= k < j - i ensures f(xs[i..j][k]).Ok? {
      assert xs[i..j][k] == xs[i + k];
    }
  }

  /** `xs.find(test)` with a test that may throw: the first element that passes, None
      when every test fails, and the error of the first test that throws before any
      passes. */
  function FirstWhere<T, E>(xs: seq<T>, test: T -> Result<bool, E>): (r: Result<Option<T>, E>)
    ensures r.Ok? && r.value.Some? ==>
      exists i :: 0 <= i < |xs| && xs[i] == r.value.value && test(xs[i]) == Ok(true)
                  && forall j :: 0 <= j < i ==> test(xs[j]) == Ok(false)
    ensures r == Ok(None) <==> forall i :: 0 <= i < |xs| ==> test(xs[i]) == Ok(false)
    ensures r.Err? <==>
      exists i :: 0 <= i < |xs| && test(xs[i]).Err? && forall j :: 0 <= j < i ==> test(xs[j]) == Ok(false)
  {
    if xs == [] then Ok(None)
    else
      var hit :- test(xs[0]);
      if hit then Ok(Some(xs[0]))
      else
        var r := FirstWhere(xs[1..], test);
        assert forall i :: 1 <= i < |xs| ==> xs[i] == xs[1..][i - 1];
        r
  }
}
